=== FILE: README.md ===
# Per-folder language-client registry of the PureScript editor extension

This project models the core of the VS Code extension `vscode-ide-purescript`
(`src/extension.ts`). The core starts one PureScript language client per
workspace folder and routes editor commands to the right client. It stops clients
when their folder is removed or when the editor shuts down.

Under the editor glue is a small sequential state machine. The model gives it one
immutable `State` record (`Registry.State`) with these parts:

- `clients`: the folder-key to client map;
- `commandCode`: the per-folder dynamic command tables;
- `registered`: the host's global set of command names;
- `starting` and `awaiting`: the clients whose readiness continuation is still to
  run;
- `trace`: the ordered effects. These are log lines, client launches, execute-command
  requests, dynamic-command invocations, command registrations and stops.

Each host event is a pure transition function with a contract. The VS Code host
is reduced to oracles (`Workspace.Host`):

- the folder list (`workspace.workspaceFolders`, possibly undefined);
- the document-to-folder lookup (`workspace.getWorkspaceFolder`);
- the set of client-construction attempts that throw.

In a run of events (`Machine.Run`) each event finds its own host, so the folder
list and the lookup can change between events, as they do when folders are
removed or added.

The analysis layer's `activatePS` is an oracle argument. It returns the dynamic
command names, or `None` when it throws.

Modules follow the parts of the source file:

- `Workspace`: URIs, folders, documents, the host oracles, and the command
  handlers' folder resolver (`getWorkspaceFolder`).
- `Selector`: `clientOptions`, meaning the document selector and what it selects.
- `Commands`: the sixteen static command names.
- `Registry`: the state and its invariants, host command registration,
  `addClient`, and folder removal.
- `Readiness`: the `onReady` continuation. It is split into two discrete events
  at its `await commands.getCommands()`; that wait may also fail.
- `Routing`: the static and dynamic command handlers, and `didOpenTextDocument`.
- `Lifecycle`: `activate` (static registration, replay of open documents, the
  single-folder fallback) and `deactivate`.
- `Machine`: every event as one `Step`, with the invariants that hold along
  every run that starts from activation. The machine takes the duplicate guard
  of the readiness continuation as a parameter: `AsWritten` is the code as
  written, `Corrected` is the fix described under "Findings".

## Model

Three invariants are used. `Registry.Coherent` says four things: client ids were issued, no client sits under two folder keys, a client is pending in at most one way, and no name was ever registered twice. `Registry.Valid` adds that no registration was ever refused. `Registry.Sessions` is about the trace: every client ever launched is still its folder's entry or was stopped after its launch (`Accounted`), and a folder's next client is launched only after its previous one was stopped (`RelaunchOnlyAfterStop`). Together these give at most one live session per folder.

| member | source | states |
|---|---|---|
| Workspace.ResolveFolder | src/extension.ts:69-80 | A saved document with an owning folder resolves to that folder. Otherwise it resolves to the first open folder. With no folder open the result is absent, and that is the only absent case. It never fails. |
| Workspace.ResolveWithinWorkspace | src/extension.ts:69-80 | On a host whose lookups name open folders, the resolver only returns an open folder. It returns nothing exactly when the folder list is empty or undefined. |
| Workspace.UnsavedResolvesToPrimary | src/extension.ts:76-78 | A document not saved on disk resolves to the folder at index 0 whenever a folder is open. |
| Selector.ClientOptionsFor | src/extension.ts:27-33 | The selector always starts with the `file`/`purescript` filter rooted at `fsPath + "/**/*"`. The options name the folder. The selector has 2 entries for index 0 and 1 otherwise. It holds the `untitled` filter if and only if the index is 0. |
| Selector.GlobRootRoundTrip | src/extension.ts:30 | Reading the root back from the glob built at line 30 gives the folder path again. |
| Selector.FileScope | src/extension.ts:29-32 | A folder's client serves a saved document exactly when the document is PureScript and lies strictly below the folder's `fsPath`, read as a literal path. |
| Selector.AdoptsUntitledIff | src/extension.ts:31 | A folder's client serves an untitled PureScript buffer if and only if the folder's index is 0. |
| Selector.ExactlyOneAdopter | src/extension.ts:29-32 | Across the open folders, exactly one client, the first folder's, serves a given untitled PureScript buffer. |
| Selector.UntitledRoutedToAdopter | src/extension.ts:27-80 | For clients launched under the current folder list, the folder a command handler picks for an untitled buffer is the folder whose client serves that buffer. |
| Selector.PrimaryRemovalStrandsUntitled | src/extension.ts:31 | Once the folder at index 0 is removed and the rest re-indexed, a handler routes an untitled buffer to the folder that was at index 1. That folder's client was launched without the `untitled` filter, and no client launched before the removal serves the buffer. |
| Commands.StaticCommandNames | src/extension.ts:50-67 | There are 16 static names. Each is `purescript.` followed by the listed suffix at the same position. |
| Commands.StaticNamesDistinct | src/extension.ts:50-67 | The 16 names are pairwise distinct, so registering them one by one never hits a duplicate among themselves. |
| Commands.StaticSetSize | src/extension.ts:50-67 | As a set, the static names hold exactly 16 names. |
| Registry.HostRegister | src/extension.ts:83 | The host registers a name it does not know. It refuses a name it already knows and throws, and that name stays registered. |
| Registry.HostRegisterKeeps | src/extension.ts:83 | A registration through the host never registers a name twice. Registering a new name draws no refusal. |
| Registry.AddClient | src/extension.ts:106-131 | A folder that already has a client changes nothing. Otherwise a launch line is logged and one attempt is made. On success exactly one entry is added under the folder's key: the new client, built with that folder's options, now awaiting readiness. On a throw only the caught error is logged and no entry is made. Other keys and the command state never change. |
| Registry.AddClientValid | src/extension.ts:106-131 | `addClient` keeps `Coherent` and `Valid`. Client ids are fresh, no client sits under two keys, and the registration history is untouched. |
| Registry.AddClientIdempotent | src/extension.ts:106-107 | While a folder's entry exists, calling `addClient` again for it is a no-op. |
| Registry.RemoveFolder | src/extension.ts:150-154 | The folder's key is absent afterwards and every other entry is kept. If the folder had a client, exactly that client's stop is appended, after the entry is gone. Otherwise nothing changes. |
| Registry.RemoveFolders | src/extension.ts:148-156 | After a batch removal the registry is the old one minus every removed key. Command tables, registrations and pending continuations are untouched, and only stops are appended. |
| Registry.RemoveFoldersStopsEachOnce | src/extension.ts:148-156 | With one client per key, the stops issued are pairwise distinct. They name exactly the clients of the removed folders. Removed folders without a client cause none. |
| Registry.RemoveFoldersValid | src/extension.ts:148-156 | Folder removal keeps `Coherent` and `Valid`. |
| Registry.QuietKeepsSessions | src/extension.ts:106-156 | A step that leaves the registry alone and launches no client keeps `Sessions`. |
| Registry.AddClientSessions | src/extension.ts:106-131 | `addClient` keeps `Sessions`. It launches a client only for a folder without an entry, and any earlier client of that folder had been stopped. |
| Registry.RemoveFolderSessions | src/extension.ts:150-154 | Removing one folder keeps `Sessions`. The client that leaves the registry is stopped in the same step. |
| Registry.RemoveFoldersSessions | src/extension.ts:148-156 | A batch removal keeps `Sessions`. |
| Readiness.OnReady | src/extension.ts:113-116 | The ready line is logged and the client is no longer pending. If `activatePS` throws, the caught error is logged and the continuation ends. Otherwise it suspends with the returned names and the host's command list. The registry and the command tables are untouched. |
| Readiness.StartFailed | src/extension.ts:113-123 | A client whose readiness fails has the rejection logged once. Nothing else changes. |
| Readiness.RegisterUnlisted | src/extension.ts:118-122 | The loop as written adds exactly the names missing from the previously fetched list. Each effect concerns one of those names: a registration of a name the host did not know, or a refusal. For distinct names, a refusal means the host already knew the name. |
| Readiness.RegisterUnlistedComplete | src/extension.ts:118-122 | As written, every name missing from the fetched list is handed to the host. It is registered if the host did not know it and refused if it did. |
| Readiness.RegisterUnlistedCoherent | src/extension.ts:118-122 | The loop as written never registers a name twice. A second attempt draws a refusal instead. |
| Readiness.RegisterAbsent | src/extension.ts:118-122 | Checked against the live set, every dynamic name ends up registered. Each effect is a registration of a name the host did not know. |
| Readiness.RegisterAbsentKnown | src/extension.ts:118-122 | Over names the host already knows, the live-checked loop does nothing, so a second run changes nothing. |
| Readiness.RegisterAbsentComplete | src/extension.ts:118-122 | Every dynamic name the host did not know gets a registration effect. |
| Readiness.RegisterAbsentValid | src/extension.ts:118-122 | The live-checked loop never registers a name twice and never draws a refusal. |
| Readiness.CommandsListedAsWritten | src/extension.ts:116-122 | As written, the folder's command table becomes the client's and only this continuation leaves `awaiting`. Attempts and clients are unchanged and effects are only appended. Each new effect concerns a dynamic name missing from the list fetched before the `await`. It is a registration of a name the host did not know, or, for distinct names, a refusal of a name it already knew. |
| Readiness.CommandsListedAsWrittenHandsOver | src/extension.ts:116-121 | As written, a dynamic name missing from the stale list is registered if the host did not know it and refused if it did. |
| Readiness.CommandsListedAsWrittenCoherent | src/extension.ts:116-122 | The second half as written keeps `Coherent`. It may draw a refusal but never registers a name twice. |
| Readiness.CommandsListed | src/extension.ts:116-122 | Corrected guard. The folder's command table is replaced by the client's, whether or not the folder still has that client. All dynamic names end up registered. Only names the host did not know are registered, and none is refused. |
| Readiness.CommandsListedRegistersAbsent | src/extension.ts:118-121 | Corrected guard: each dynamic name unknown to the host when the continuation resumes is registered by it. |
| Readiness.ReadinessMonotone | src/extension.ts:113-122 | Neither half of the continuation, as written or corrected, ever removes a registered command name. |
| Readiness.OnReadyValid | src/extension.ts:113-116 | The first half of the continuation keeps `Coherent` and `Valid`. |
| Readiness.StartFailedValid | src/extension.ts:123 | A failed readiness keeps `Coherent` and `Valid`. |
| Readiness.CommandsListedValid | src/extension.ts:116-122 | The corrected second half keeps `Coherent` and `Valid`. |
| Readiness.CommandsListFailed | src/extension.ts:116-123 | If the wait for the host's command list rejects, the catch logs it once and the continuation ends. The folder's command table is not recorded and no name is registered. The registry, the pending clients and the attempts are unchanged. |
| Readiness.CommandsListFailedValid | src/extension.ts:116-123 | A failed command-list query keeps `Coherent` and `Valid`. |
| Readiness.StaleListRegistersTwice | src/extension.ts:116-121 | Counterexample for the code as written, from any state where two clients are starting and a name is new to the host. Both clients become ready with that name, and both query the command list before either registers. The first registers the name, then the second asks again and is refused. |
| Readiness.LiveCheckRegistersOnce | src/extension.ts:116-121 | With the corrected guard, the same interleaving from a valid state registers the name once, stays valid and draws no refusal. |
| Routing.RunStatic | src/extension.ts:82-93 | Exactly one effect when a folder resolves, none otherwise. With no folder resolved, nothing happens. With a folder but no client, exactly one log line. Otherwise exactly one execute-command request with the same name and arguments goes to that folder's client. Only the trace changes. |
| Routing.DispatchDynamic | src/extension.ts:95-104 | Exactly one effect when a folder resolves, none otherwise. With no folder, nothing happens. With no command table, one log line. Otherwise exactly one call of the table's function for the name, bound to the table's client, with the arguments; if the table lacks the name, the handler throws to the host. Only the trace changes. |
| Routing.DispatchIgnoresClients | src/extension.ts:95-104 | Dynamic dispatch consults only the command tables. Changing `clients` does not change what it does. |
| Routing.StaticIgnoresCommandTables | src/extension.ts:82-93 | Static dispatch consults only `clients`, never the command tables or registrations. |
| Routing.StaticRequestTargetsLiveClient | src/extension.ts:84-91 | Any request sent goes to the registered client of the resolved folder and carries a static command name. |
| Routing.DidOpen | src/extension.ts:133-144 | A document that is not a saved PureScript file causes nothing. An owned file calls `addClient` for its folder. An unowned file adds exactly one log line. |
| Routing.DidOpenOutcome | src/extension.ts:133-144 | Opening a document never removes or changes an existing client. Only the owning folder's key can be added, and it is added unless that construction attempt throws. |
| Routing.DidOpenValid | src/extension.ts:133-144 | The document-open handler keeps `Coherent` and `Valid`. |
| Routing.RunStaticValid | src/extension.ts:82-93 | The static command handler keeps `Coherent` and `Valid`. |
| Routing.DispatchDynamicValid | src/extension.ts:95-104 | The dynamic command handler keeps `Coherent` and `Valid`. |
| Lifecycle.RegisterAll | src/extension.ts:82-83 | Static registration changes only the registered names and the trace. It only adds names and only appends effects. |
| Lifecycle.FirstKnownPastEnd | src/extension.ts:82-83 | Registration reaches the end of the list exactly when the host knows none of the names. |
| Lifecycle.RegisterAllRegisters | src/extension.ts:82-83 | For distinct names, the names registered are exactly those before the first one the host already knows. |
| Lifecycle.RegisterAllTrace | src/extension.ts:82-83 | For distinct names, the effects are one registration per name before the first known one, in order. That name, if there is one, is refused and the loop ends. |
| Lifecycle.RegisterAllSummary | src/extension.ts:82-83 | For distinct names, registration draws a refusal exactly when the host knows one of the names. Otherwise all of them are registered. |
| Lifecycle.RegisterAllKeeps | src/extension.ts:82-83 | Static registration never registers a name twice. |
| Lifecycle.BlankRegisterAll | src/extension.ts:82-83 | For any distinct names registered before activation, the state is coherent with no clients, tables or attempts. The names before the first one the host knows are registered, and there is a refusal exactly when the host knows one of them. |
| Lifecycle.Initial | src/extension.ts:82-93 | After static registration the state is coherent, with no clients, tables or attempts. The static names before the first one the host knows are registered alongside the host's own. There is no refusal exactly when the host knows none of the static names, and then all 16 are registered. |
| Lifecycle.InitialTrace | src/extension.ts:82-83 | The effects of static registration: each static name before the first known one is registered in list order, then that name is refused if there is one, and nothing else happens. |
| Lifecycle.OpenAll | src/extension.ts:147 | Replaying the open documents keeps every existing client and leaves command state untouched. |
| Lifecycle.OpenAllOutcome | src/extension.ts:147 | The replay keeps `Coherent` and `Valid`. It adds clients only for folders that own an open PureScript file. When no construction throws, every such folder gets a client. |
| Lifecycle.Fallback | src/extension.ts:157-167 | With a client present, nothing happens. With none, the outcome depends on the folder list. Undefined: one advisory line. Exactly one folder: a log line, then a client for that folder unless construction throws. Several folders: one advisory line and no client. An empty list: nothing. |
| Lifecycle.FallbackValid | src/extension.ts:157-167 | The fallback keeps `Coherent` and `Valid`. |
| Lifecycle.RegisterAllSessions | src/extension.ts:82-83 | Registering commands with the host launches no client, so it keeps `Sessions`. |
| Lifecycle.InitialSessions | src/extension.ts:82-83 | Static registration launches no client, so `Sessions` holds before any document is replayed. |
| Lifecycle.DidOpenSessions | src/extension.ts:133-144 | The document-open handler keeps `Sessions`. |
| Lifecycle.OpenAllSessions | src/extension.ts:147 | Replaying the open documents keeps `Sessions`. |
| Lifecycle.FallbackSessions | src/extension.ts:157-167 | The fallback keeps `Sessions`. |
| Lifecycle.ActivateSessions | src/extension.ts:10-167 | After activation, aborted or completed, `Sessions` holds: every launched client is its folder's entry, one per folder. |
| Lifecycle.Activate | src/extension.ts:10-167 | Activation is always coherent and registers what static registration registered. If the host already knows a static name, the registration throws and activation ends there. There is one refusal, no client and no replay, and the earlier static names stay registered. Otherwise the state is valid with every static command registered and no client ready yet. Every client belongs to a folder owning an open PureScript file, or to the first folder. When no construction throws, every folder owning an open PureScript file has a client. |
| Lifecycle.SeveralFoldersDefer | src/extension.ts:157-163 | With several folders and no PureScript file open, a completed activation starts no client and logs the advisory. |
| Lifecycle.SingleFolderStarts | src/extension.ts:157-161 | With one folder and no failing construction, a completed activation ends with exactly that folder's client. |
| Lifecycle.SingleFolderReplay | src/extension.ts:147-161 | From a state without clients, replay and fallback on a one-folder host without failures leave exactly that folder's client. |
| Lifecycle.StopAll | src/extension.ts:172-174 | The loop visits every registry key exactly once and returns that order. It issues one stop per key, for that key's client, in that order. |
| Lifecycle.Deactivate | src/extension.ts:170-176 | Exactly one stop per registry entry and no other effect. Every registered client is stopped, and only registered clients. With one client per key, none is stopped twice. The registry is left as it was. |
| Lifecycle.StopsCoverRegistry | src/extension.ts:172-174 | One stop per key names only registered clients and every registered client, and distinct clients when no client sits under two keys. |
| Machine.Step | src/extension.ts:82-156 | With either guard, every event only adds command registrations, only appends effects and never lowers the attempt count. |
| Machine.StepCoherent | src/extension.ts:82-156 | With either guard, including the code as written, every event keeps `Coherent`. |
| Machine.StepValid | src/extension.ts:82-156 | With the corrected guard, every event keeps `Valid`, so no registration is ever refused. |
| Machine.RunCoherent | src/extension.ts:82-156 | Along any run with either guard the state stays coherent, registrations only grow and effects are only appended. Each event may find a different host, so folder lists and lookups can change between events. |
| Machine.RunValid | src/extension.ts:82-156 | Along any run with the corrected guard the state stays valid, whatever host each event finds. |
| Machine.StepSessions | src/extension.ts:106-156 | With either guard and any host, every event keeps `Sessions`. Only `addClient` launches and only folder removal takes a client out of the registry, and it stops that client. |
| Machine.RunSessions | src/extension.ts:106-156 | Along any run, with either guard and whatever hosts the events find, every launched client is still its folder's entry or was stopped. A folder's next client is launched only after its previous one was stopped. |
| Machine.ReachableFromActivation | src/extension.ts:10-167 | From any activation, with either guard and whatever events follow, each finding its own host: no command name is registered twice, and no client serves two folders. Every client ever launched is still its folder's entry or was stopped, and a folder gets a new client only after its previous one was stopped. What activation registered stays registered. After a completed activation every static command stays registered. With the corrected guard after a completed activation, the host never refuses a registration. |
| Machine.RaceRun | src/extension.ts:113-122 | With clients 0 and 1 starting, the race's four events can be delivered with either guard, whatever hosts they find. The run is the two halves of each continuation in turn. |
| Machine.RaceOutcome | src/extension.ts:113-122 | From any state with clients 0 and 1 starting and a name new to the host, the race as written draws a refusal. From a valid state the corrected run draws none. |
| Machine.StaleGuardRefusesAfterActivation | src/extension.ts:10-167 | The refusal is reachable. Two folders each own an open PureScript file, and the host knows no static name. After activation the race as written ends with a refused registration. The corrected run refuses nothing. |
| Machine.ActivationStartsBoth | src/extension.ts:133-147 | Activation with open PureScript files in two different folders, and no failing construction, starts clients 0 and 1 for those folders. It registers the host's and the static names. |
| Machine.TwoOpensStartBoth | src/extension.ts:106-161 | From a state without clients or attempts, opening two PureScript files of two folders starts clients 0 and 1, and the fallback then does nothing. |
| Machine.OpenInSecondFolder | src/extension.ts:133-167 | Two folders and no open file: activation starts nothing. Opening a PureScript file of the second folder then launches exactly one client, for that folder. Its selector serves exactly the PureScript files below that folder's root. |
| Machine.FirstOpenLaunches | src/extension.ts:134-143 | With no client yet and no failing construction, opening a PureScript file that the host places in a folder starts exactly that folder's client. The launch is the last effect. |

## Behaviour of the code worth noting

The model follows the code in each of these points, where a reader might expect otherwise.

- Activation with an empty folder list logs nothing (`src/extension.ts:164` tests
  only for `undefined`). The advisory line appears only when the list is undefined.
- A static command for a folder whose client exists but is not yet ready calls
  `sendRequest` on that client (`src/extension.ts:86-91`): the entry is made right
  after `start()`, not at readiness. What a client that is not yet running does
  with the request is library behaviour outside this model.
- The readiness continuation has a third suspension point, the wait for the host's
  command list at `src/extension.ts:116`. The model splits the continuation there
  (`Readiness.OnReady`, `Readiness.CommandsListedAsWritten`).
- The static registration at `src/extension.ts:82-83` has no duplicate guard. If
  the host already knows a static name, the host throws and `activate` ends. The
  names registered before that one stay registered, but no listener is installed
  and no client is ever started (`Lifecycle.Activate`).
- `deactivate` stops every client but does not empty `clients`.
- The readiness continuation runs even for a client whose folder was removed
  meanwhile, and it still records that folder's command table.
- At most one client runs per folder only while the folder's entry exists. After
  the folder is removed and added back, opening one of its files launches a new
  client under the same key.
- Client options are fixed at launch. After the folder at index 0 is removed, no
  client launched before the removal serves untitled buffers
  (`Selector.PrimaryRemovalStrandsUntitled`). A client launched afterwards for the
  new first folder does.

## Findings

| source | as written | input that shows it | evidently intended | confidence | as-written member | corrected member |
|---|---|---|---|---|---|---|
| src/extension.ts:116-121 | The duplicate guard tests each dynamic name against `cmdNames`, a list fetched before the `await`. Other continuations may register names while this one is suspended. | Two folders each own an open PureScript file, so activation starts two clients. Both become ready and both analysis layers return `purescript.x`. Both continuations reach line 116 before either resumes. The second finds `purescript.x` missing from its stale list and calls `registerTextEditorCommand` for it again. The host throws "already exists" inside an un-awaited `Promise.all`. | A dynamic name is registered only if the host does not know it at the moment of registration. No registration is ever refused. | medium; not executed | Machine.StaleGuardRefusesAfterActivation | Readiness.CommandsListed |

The machine runs with either guard. `Machine.Step` with `AsWritten` calls
`Readiness.CommandsListedAsWritten`, which keeps the loop as written
(`Readiness.RegisterUnlisted`). With `Corrected` it calls `Readiness.CommandsListed`.
Only `Coherent` is proved for the code as written. `Valid`, which adds the absence of
refusals, is proved for the corrected guard only, because the code as written
breaks it (`Readiness.StaleListRegistersTwice`).

## Left out

- Server options, the IPC transport and the debug flags (`src/extension.ts:13-24`) are left out: they configure the library, not the registry.
- The file-system watcher and configuration sync (`src/extension.ts:34-37`), the output channel and the reveal policy are left out for the same reason.
- The error-handler policy (`src/extension.ts:40-43`) and `initializationOptions` are left out: they are pluggable library decisions.
- The middleware (`src/extension.ts:47`) and the `./notifications`, `./middleware` and `./bundle` modules are not part of this model. `activatePS` is an oracle returning a name list or a throw. The notification hooks and client it receives are not modelled.
- The configuration surface that `activate` returns (`src/extension.ts:168`) is left out: it is process-wide setters of the modules not modelled.
- `registerProposedFeatures` (`src/extension.ts:111`) is library behaviour and is left out.
- Exact log text is left out: each log write is an opaque `LogLine` tag.
- The exception a handler raises is an opaque effect too, and so is the exception that ends an aborted activation.
- Promises and scheduling are replaced by discrete events (`Machine.Event`): readiness, readiness failure, and the command-list query resolving or rejecting.
- Lifecycle.Deactivate: records the stops issued. It does not model the returned promise, which rejects as soon as one stop rejects and otherwise settles after all stops complete, because that is asynchronous completion.
- A construction that throws (`src/extension.ts:127-129`) leaves no pending continuation. A client whose `start()` threw after `onReady` was attached is treated as never becoming ready.
- URIs carry only a scheme and a path. `toString()` is `scheme + "://" + path` with no authority or percent-encoding, and `fsPath` is the path (POSIX). The resolver does not depend on these details.
- Glob matching is defined only for the `root/**/*` shape the core builds. Other patterns select nothing.
- Selector.FileScope: takes the folder path literally as the glob root. Line 30 inserts `fsPath` into the glob unescaped, so a root containing `*`, `?`, `[`, `]`, `{` or `}` is read by the host as pattern syntax and may select other files.
- The order of `Object.keys` is the order of the oracle's name list. `Lifecycle.Deactivate` visits registry entries in an unspecified order rather than insertion order.
- Workspace-folder additions are not handled, because the source ignores `event.added`.
- Selector.UntitledRoutedToAdopter: holds for clients launched under the folder list the host has now. After a removal re-indexes the folders, clients launched earlier keep their old options; that case is stated separately in `Selector.PrimaryRemovalStrandsUntitled`.
- Machine.StepValid: proved for the corrected guard only. For the code as written `Machine.StepCoherent` holds, and the refusal it can draw is the finding above.
- Machine.RunValid: proved for the corrected guard only. For the code as written `Machine.RunCoherent` holds.
- Machine.ReachableFromActivation: the absence of refusals is stated only for the corrected guard after a completed activation. An aborted activation already holds one refusal, and the code as written can draw more.
- After an aborted activation no listener is installed, but `Machine.Enabled` still admits document and folder events.
- A run pairs each event with the host as that event finds it, but nothing ties consecutive hosts together: the folder list after a `FoldersRemoved` event is not forced to lack the removed folders. The machine therefore allows more runs than the host delivers, and what it proves about all runs also holds for the real ones.
- Lifecycle.SingleFolderStarts: stated only for a host where no construction throws. `Lifecycle.Fallback` covers the failing case: no entry is made.

=== FILE: base.dfy ===
/** Small shared vocabulary: an optional value, the elements of a sequence, and
    distinctness of a sequence. */
module Base {

  /** `undefined`/`null` versus a present value. */
  datatype Option<+T> = None | Some(value: T)

  /** No element of `xs` occurs twice. */
  predicate Distinct<T(==)>(xs: seq<T>)
  {
    forall i, j :: 0 <= i < j < |xs| ==> xs[i] != xs[j]
  }

  /** The elements of a sequence, as a set. */
  function Elements<T>(xs: seq<T>): set<T>
  {
    set i | 0 <= i < |xs| :: xs[i]
  }

  /** The elements of a non-empty sequence are its head and those of its tail. */
  lemma ElementsSplit<T>(xs: seq<T>)
    requires |xs| > 0
    ensures Elements(xs) == {xs[0]} + Elements(xs[1..])
  {
    forall x | x in Elements(xs) ensures x in {xs[0]} + Elements(xs[1..]) {
      var i :| 0 <= i < |xs| && xs[i] == x;
      if i > 0 {
        assert xs[1..][i - 1] == x;
      }
    }
    forall x | x in Elements(xs[1..]) ensures x in Elements(xs) {
      var i :| 0 <= i < |xs[1..]| && xs[1..][i] == x;
      assert xs[i + 1] == x;
    }
  }

  /** A map never sends two keys to the same value. */
  predicate Injective<K, V(==)>(m: map<K, V>)
  {
    forall k1, k2 :: k1 in m && k2 in m && k1 != k2 ==> m[k1] != m[k2]
  }

  lemma DistinctAppend<T>(xs: seq<T>, x: T)
    requires Distinct(xs)
    requires x !in xs
    ensures Distinct(xs + [x])
  {
    var ys := xs + [x];
    forall i, j | 0 <= i < j < |ys|
      ensures ys[i] != ys[j]
    {
      if j == |xs| {
        assert ys[i] == xs[i];
      } else {
        assert ys[i] == xs[i] && ys[j] == xs[j];
      }
    }
  }
}

=== FILE: commands.dfy ===
/**
 The static command list: sixteen editor commands, known when the extension is
 built, each relayed to the language server as a generic execute-command request.
 */
module Commands {
  import opened Base

  /** The namespace every command of this extension lives in. */
  const Namespace: string := "purescript."

  /** The command names before namespacing, in registration order. */
  const StaticSuffixes: seq<string> := [
    "caseSplit-explicit",
    "addClause-explicit",
    "addCompletionImport",
    "addModuleImport",
    "replaceSuggestion",
    "replaceAllSuggestions",
    "build",
    "clean",
    "typedHole-explicit",
    "startPscIde",
    "stopPscIde",
    "restartPscIde",
    "getAvailableModules",
    "search",
    "fixTypo",
    "sortImports"
  ]

  /** An opaque positional argument of a command invocation. */
  datatype Arg = Arg(repr: string)

  /** `commandNames`: the namespaced static command names. */
  function StaticCommandNames(): (r: seq<string>)
    ensures |r| == 16
    ensures forall i :: 0 <= i < |r| ==> Namespace <= r[i]
    ensures forall i :: 0 <= i < |r| ==> r[i][|Namespace|..] == StaticSuffixes[i]
  {
    seq(|StaticSuffixes|, i requires 0 <= i < |StaticSuffixes| => Namespace + StaticSuffixes[i])
  }

  /** The static names as a set, the form in which they enter the host's
      command namespace. */
  function StaticCommandSet(): set<string>
  {
    Elements(StaticCommandNames())
  }

  lemma SuffixesDistinct()
    ensures Distinct(StaticSuffixes)
  {
  }

  /** No static name is listed twice, so registering the list one name at a
      time never asks the host to register a name twice. */
  lemma StaticNamesDistinct()
    ensures Distinct(StaticCommandNames())
  {
    var names := StaticCommandNames();
    SuffixesDistinct();
    forall i, j | 0 <= i < j < |names|
      ensures names[i] != names[j]
    {
      assert names[i][|Namespace|..] != names[j][|Namespace|..];
    }
  }

  /** As a set, the static names hold exactly sixteen names. */
  lemma StaticSetSize()
    ensures |StaticCommandSet()| == 16
  {
    StaticNamesDistinct();
    DistinctCard(StaticCommandNames());
  }

  lemma {:induction false} DistinctCard(xs: seq<string>)
    requires Distinct(xs)
    ensures |Elements(xs)| == |xs|
  {
    if |xs| > 0 {
      var init := xs[..|xs| - 1];
      assert Distinct(init) by {
        forall i, j | 0 <= i < j < |init| ensures init[i] != init[j] {
          assert init[i] == xs[i] && init[j] == xs[j];
        }
      }
      DistinctCard(init);
      var a := Elements(init);
      var b := Elements(xs);
      assert b == a + {xs[|xs| - 1]} by {
        forall x | x in b ensures x in a + {xs[|xs| - 1]} {
          var i :| 0 <= i < |xs| && xs[i] == x;
          if i < |xs| - 1 {
            assert init[i] == x;
          }
        }
        forall x | x in a ensures x in b {
          var i :| 0 <= i < |init| && init[i] == x;
          assert xs[i] == x;
        }
      }
      assert xs[|xs| - 1] !in a;
    }
  }
}

=== FILE: lifecycle.dfy ===
/**
 Activation and deactivation of the extension: registering the static
 commands, replaying the documents already open, the single-folder fallback,
 and stopping every client on shutdown.
 */
module Lifecycle {
  import opened Base
  import opened Workspace
  import opened Commands
  import opened Registry
  import opened Routing

  /**
   `commandNames.forEach(... registerTextEditorCommand ...)`: each name is
   handed to the host in order. The host throws on a name it already knows,
   which ends the loop there and, with it, `activate`.
   */
  function RegisterAll(s: State, names: seq<string>): (r: State)
    ensures r.clients == s.clients && r.commandCode == s.commandCode && r.starting == s.starting
    ensures r.awaiting == s.awaiting && r.attempts == s.attempts
    ensures s.registered <= r.registered && s.trace <= r.trace
    decreases |names|
  {
    if |names| == 0 then
      s
    else if names[0] in s.registered then
      HostRegister(s, names[0])
    else
      RegisterAll(HostRegister(s, names[0]), names[1..])
  }

  /** The position of the first of `names` that is in `known`, or `|names|`
      when there is none. */
  function FirstKnown(known: set<string>, names: seq<string>): (j: nat)
    ensures j <= |names|
    ensures forall i :: 0 <= i < j ==> names[i] !in known
    ensures j < |names| ==> names[j] in known
    decreases |names|
  {
    if |names| == 0 then 0 else if names[0] in known then 0 else 1 + FirstKnown(known, names[1..])
  }

  /** No name of `names` is known exactly when the first known one lies past
      the end. */
  lemma FirstKnownPastEnd(known: set<string>, names: seq<string>)
    ensures FirstKnown(known, names) == |names| <==> known !! Elements(names)
  {
    var j := FirstKnown(known, names);
    if j < |names| {
      assert names[j] in Elements(names);
    }
  }

  /** Adding a name that is not in the list does not move its first known name. */
  lemma {:induction false} FirstKnownIgnores(known: set<string>, x: string, names: seq<string>)
    requires x !in names
    ensures FirstKnown(known + {x}, names) == FirstKnown(known, names)
    decreases |names|
  {
    if |names| > 0 {
      FirstKnownIgnores(known, x, names[1..]);
    }
  }

  /** For distinct names, the names registered are those before the first
      one the host knows. */
  lemma {:induction false} RegisterAllRegisters(s: State, names: seq<string>)
    requires Distinct(names)
    ensures RegisterAll(s, names).registered == s.registered + Elements(names[..FirstKnown(s.registered, names)])
    decreases |names|
  {
    if |names| > 0 && names[0] !in s.registered {
      var s1 := HostRegister(s, names[0]);
      var rest := names[1..];
      var j := FirstKnown(s.registered, names);
      assert Distinct(rest);
      FirstKnownIgnores(s.registered, names[0], rest);
      RegisterAllRegisters(s1, rest);
      assert names[..j][1..] == rest[..j - 1];
      ElementsSplit(names[..j]);
    } else if |names| > 0 {
      assert names[..0] == [];
    }
  }

  /**
   For distinct names, the effects are one registration per name before the
   first one the host knows, in order, then that name's refusal if there is
   one, and nothing more.
   */
  lemma {:induction false} RegisterAllTrace(s: State, names: seq<string>)
    requires Distinct(names)
    ensures var j := FirstKnown(s.registered, names);
      var r := RegisterAll(s, names);
      && |r.trace| == |s.trace| + j + (if j < |names| then 1 else 0)
      && (forall i :: 0 <= i < j ==> r.trace[|s.trace| + i] == Register(names[i]))
      && (j < |names| ==> r.trace[|s.trace| + j] == RegisterRejected(names[j]))
    decreases |names|
  {
    if |names| > 0 && names[0] !in s.registered {
      var s1 := HostRegister(s, names[0]);
      var rest := names[1..];
      assert Distinct(rest);
      FirstKnownIgnores(s.registered, names[0], rest);
      RegisterAllTrace(s1, rest);
      var j := FirstKnown(s.registered, names);
      var r := RegisterAll(s1, rest);
      forall i | 0 <= i < j ensures r.trace[|s.trace| + i] == Register(names[i]) {
        if i > 0 {
          assert r.trace[|s1.trace| + (i - 1)] == Register(rest[i - 1]);
        }
      }
    }
  }

  /** Registering through the host keeps every name registered at most once. */
  lemma {:induction false} RegisterAllKeeps(s: State, names: seq<string>)
    requires RegisteredOnce(s)
    ensures RegisteredOnce(RegisterAll(s, names))
    decreases |names|
  {
    if |names| > 0 {
      HostRegisterKeeps(s, names[0]);
      if names[0] !in s.registered {
        RegisterAllKeeps(HostRegister(s, names[0]), names[1..]);
      }
    }
  }

  /** The state before activation: the host's dispatcher knows `hostCommands`. */
  function Blank(hostCommands: set<string>): State
  {
    State(map[], map[], hostCommands, map[], map[], 0, [])
  }

  /** For distinct names: registration draws a refusal exactly when the host
      knows one of the names, and otherwise registers all of them. */
  lemma RegisterAllSummary(s: State, names: seq<string>)
    requires Distinct(names)
    ensures var r := RegisterAll(s, names);
      && (NoRejection(r.trace[|s.trace|..]) <==> s.registered !! Elements(names))
      && (s.registered !! Elements(names) ==> r.registered == s.registered + Elements(names))
  {
    RegisterAllTrace(s, names);
    RegisterAllRegisters(s, names);
    FirstKnownPastEnd(s.registered, names);
    var r := RegisterAll(s, names);
    var j := FirstKnown(s.registered, names);
    var added := r.trace[|s.trace|..];
    if j < |names| {
      assert added[j].RegisterRejected?;
    } else {
      assert names[..j] == names;
      forall i | 0 <= i < |added| ensures !added[i].RegisterRejected? {
        assert added[i] == r.trace[|s.trace| + i] == Register(names[i]);
      }
    }
  }

  /**
   The state right after the static commands are handed to a host whose
   dispatcher already knows `hostCommands`: no clients and no tables, and the
   static names before the first one the host knows registered. Registration
   goes through without a refusal exactly when the host knows none of the
   static names, and then all sixteen are registered.
   */
  function Initial(hostCommands: set<string>): (r: State)
    ensures Coherent(r)
    ensures r.clients == map[] && r.commandCode == map[] && r.starting == map[] && r.awaiting == map[]
    ensures r.attempts == 0
    ensures r.registered == hostCommands + Elements(StaticCommandNames()[..FirstKnown(hostCommands, StaticCommandNames())])
    ensures NoRejection(r.trace) <==> hostCommands !! StaticCommandSet()
    ensures hostCommands !! StaticCommandSet() ==> r.registered == hostCommands + StaticCommandSet()
  {
    StaticNamesDistinct();
    BlankRegisterAll(hostCommands, StaticCommandNames());
    RegisterAll(Blank(hostCommands), StaticCommandNames())
  }

  /** Registering distinct names from the state before activation leaves a
      coherent state without clients, tables or attempts, registers the names
      before the first known one, and draws a refusal exactly when the host
      knows one of them. */
  lemma BlankRegisterAll(hostCommands: set<string>, names: seq<string>)
    requires Distinct(names)
    ensures var r := RegisterAll(Blank(hostCommands), names);
      && Coherent(r)
      && r.clients == map[] && r.commandCode == map[] && r.starting == map[] && r.awaiting == map[]
      && r.attempts == 0
      && r.registered == hostCommands + Elements(names[..FirstKnown(hostCommands, names)])
      && (NoRejection(r.trace) <==> hostCommands !! Elements(names))
      && (hostCommands !! Elements(names) ==> r.registered == hostCommands + Elements(names))
  {
    var b := Blank(hostCommands);
    RegisterAllRegisters(b, names);
    RegisterAllKeeps(b, names);
    RegisterAllSummary(b, names);
    var r := RegisterAll(b, names);
    assert r.trace[|b.trace|..] == r.trace;
  }

  /**
   The effects of static registration: one registration per static name
   before the first one the host knows, in list order, then that name's
   refusal if there is one, and nothing else.
   */
  lemma InitialTrace(hostCommands: set<string>)
    ensures var names := StaticCommandNames();
      var j := FirstKnown(hostCommands, names);
      var r := RegisterAll(Blank(hostCommands), names);
      && |r.trace| == j + (if j < 16 then 1 else 0)
      && (forall i :: 0 <= i < j ==> r.trace[i] == Register(names[i]))
      && (j < 16 ==> r.trace[j] == RegisterRejected(names[j]))
  {
    StaticNamesDistinct();
    RegisterAllTrace(Blank(hostCommands), StaticCommandNames());
  }

  /** `workspace.textDocuments.forEach(didOpenTextDocument)`. */
  function OpenAll(s: State, host: Host, docs: seq<TextDocument>): (r: State)
    ensures forall k :: k in s.clients ==> k in r.clients && r.clients[k] == s.clients[k]
    ensures r.commandCode == s.commandCode && r.registered == s.registered && r.awaiting == s.awaiting
    decreases |docs|
  {
    if |docs| == 0 then s else OpenAll(DidOpen(s, host, docs[0]), host, docs[1..])
  }

  /** The folder keys some qualifying document of `docs` lies in. */
  function OwnedKeys(host: Host, docs: seq<TextDocument>): set<string>
  {
    set i | 0 <= i < |docs| && Qualifies(docs[i]) && docs[i].uri in host.owner :: Key(host.owner[docs[i].uri])
  }

  /** The folders the documents own are those the first one owns and those
      the rest own. */
  lemma OwnedKeysSplit(host: Host, docs: seq<TextDocument>)
    requires |docs| > 0
    ensures OwnedKeys(host, docs) ==
      (if Qualifies(docs[0]) && docs[0].uri in host.owner then {Key(host.owner[docs[0].uri])} else {})
      + OwnedKeys(host, docs[1..])
  {
    forall x | x in OwnedKeys(host, docs[1..]) ensures x in OwnedKeys(host, docs) {
      var i :| 0 <= i < |docs[1..]| && Qualifies(docs[1..][i]) && docs[1..][i].uri in host.owner
        && Key(host.owner[docs[1..][i].uri]) == x;
      assert docs[i + 1] == docs[1..][i];
    }
    forall x | x in OwnedKeys(host, docs)
      ensures x in (if Qualifies(docs[0]) && docs[0].uri in host.owner then {Key(host.owner[docs[0].uri])} else {})
        + OwnedKeys(host, docs[1..])
    {
      var i :| 0 <= i < |docs| && Qualifies(docs[i]) && docs[i].uri in host.owner && Key(host.owner[docs[i].uri]) == x;
      if i > 0 {
        assert docs[1..][i - 1] == docs[i];
      }
    }
  }

  /** Replaying the open documents adds clients only for folders that own one
      of those documents, and keeps the state valid. When no construction
      throws, every folder owning one of those documents gets a client. */
  lemma {:induction false} OpenAllOutcome(s: State, host: Host, docs: seq<TextDocument>)
    requires Coherent(s)
    ensures Coherent(OpenAll(s, host, docs))
    ensures Valid(s) ==> Valid(OpenAll(s, host, docs))
    ensures OpenAll(s, host, docs).clients.Keys <= s.clients.Keys + OwnedKeys(host, docs)
    ensures host.failing == {} ==> s.clients.Keys + OwnedKeys(host, docs) <= OpenAll(s, host, docs).clients.Keys
    decreases |docs|
  {
    if |docs| > 0 {
      var s1 := DidOpen(s, host, docs[0]);
      DidOpenValid(s, host, docs[0]);
      DidOpenOutcome(s, host, docs[0]);
      OpenAllOutcome(s1, host, docs[1..]);
      OwnedKeysSplit(host, docs);
    }
  }

  /**
   The fallback after the replay. If some client exists it does nothing. With
   no clients: without a folder list it logs an advisory; with exactly one
   folder it logs and adds a client for that folder; with several it logs and
   adds nothing; with an empty folder list it does nothing at all.
   */
  function Fallback(s: State, host: Host): (r: State)
    ensures |s.clients| > 0 ==> r == s
    ensures r.clients.Keys <= s.clients.Keys + (if HasFolders(host) then {Key(host.folders.value[0])} else {})
    ensures |s.clients| == 0 && host.folders.None? ==> r == s.(trace := s.trace + [Log(NoWorkspace)])
    ensures |s.clients| == 0 && host.folders.Some? && |host.folders.value| > 1 ==>
      r == s.(trace := s.trace + [Log(SeveralFolders)])
    ensures |s.clients| == 0 && host.folders.Some? && |host.folders.value| == 0 ==> r == s
    ensures |s.clients| == 0 && host.folders.Some? && |host.folders.value| == 1 ==>
      && |r.trace| > |s.trace| && r.trace[|s.trace|] == Log(OnlyOneFolder)
      && (Key(host.folders.value[0]) in r.clients <==> s.attempts !in host.failing)
  {
    if |s.clients| == 0 then
      match host.folders
      case None => s.(trace := s.trace + [Log(NoWorkspace)])
      case Some(fs) =>
        if |fs| == 1 then
          AddClient(s.(trace := s.trace + [Log(OnlyOneFolder)]), host, fs[0])
        else if |fs| > 1 then
          s.(trace := s.trace + [Log(SeveralFolders)])
        else
          s
    else
      s
  }

  lemma FallbackValid(s: State, host: Host)
    requires Coherent(s)
    ensures Coherent(Fallback(s, host))
    ensures Valid(s) ==> Valid(Fallback(s, host))
  {
    var r := Fallback(s, host);
    if |s.clients| == 0 && host.folders.Some? && |host.folders.value| == 1 {
      var s1 := s.(trace := s.trace + [Log(OnlyOneFolder)]);
      RegisteredOnceExtend(s, s1);
      AddClientValid(s1, host, host.folders.value[0]);
    } else {
      RegisteredOnceExtend(s, r);
    }
  }

  /**
   `activate`: register the static commands, replay the open documents, then
   fall back to the single folder. If the host already knows a static name, its
   registration throws and `activate` ends there: no listener, no replay, no
   fallback, and the static names registered before it stay registered.
   Otherwise the result is valid, every static command is registered, no
   client is ready yet, and every client belongs to a folder that owns an open
   PureScript file or to the single open folder. When no construction throws,
   every folder that owns an open PureScript file has a client.
   */
  function Activate(host: Host, docs: seq<TextDocument>, hostCommands: set<string>): (r: State)
    ensures Coherent(r)
    ensures r.commandCode == map[] && r.awaiting == map[]
    ensures Initial(hostCommands).registered == r.registered
    ensures hostCommands !! StaticCommandSet() ==>
      && Valid(r)
      && StaticCommandSet() <= r.registered
      && r.clients.Keys <= OwnedKeys(host, docs) + (if HasFolders(host) then {Key(host.folders.value[0])} else {})
    ensures hostCommands !! StaticCommandSet() && host.failing == {} ==> OwnedKeys(host, docs) <= r.clients.Keys
    ensures !(hostCommands !! StaticCommandSet()) ==>
      && r == Initial(hostCommands)
      && r.clients == map[] && r.starting == map[]
      && !NoRejection(r.trace)
  {
    var s0 := Initial(hostCommands);
    if !(hostCommands !! StaticCommandSet()) then
      s0
    else
      OpenAllOutcome(s0, host, docs);
      var s1 := OpenAll(s0, host, docs);
      FallbackValid(s1, host);
      Fallback(s1, host)
  }

  /** Registering commands launches nothing, so it keeps the sessions
      invariant. */
  lemma {:induction false} RegisterAllSessions(s: State, names: seq<string>)
    requires Sessions(s)
    ensures Sessions(RegisterAll(s, names))
    decreases |names|
  {
    if |names| > 0 {
      var s1 := HostRegister(s, names[0]);
      QuietKeepsSessions(s, s1);
      if names[0] !in s.registered {
        RegisterAllSessions(s1, names[1..]);
      }
    }
  }

  /** Static registration launches nothing, so no session exists yet. */
  lemma InitialSessions(hostCommands: set<string>)
    ensures Sessions(Initial(hostCommands))
  {
    RegisterAllSessions(Blank(hostCommands), StaticCommandNames());
  }

  /** Opening a document keeps the sessions invariant. */
  lemma DidOpenSessions(s: State, host: Host, doc: TextDocument)
    requires Sessions(s)
    ensures Sessions(DidOpen(s, host, doc))
  {
    if Qualifies(doc) && doc.uri in host.owner {
      AddClientSessions(s, host, host.owner[doc.uri]);
    } else {
      QuietKeepsSessions(s, DidOpen(s, host, doc));
    }
  }

  /** Replaying the open documents keeps the sessions invariant. */
  lemma {:induction false} OpenAllSessions(s: State, host: Host, docs: seq<TextDocument>)
    requires Sessions(s)
    ensures Sessions(OpenAll(s, host, docs))
    decreases |docs|
  {
    if |docs| > 0 {
      DidOpenSessions(s, host, docs[0]);
      OpenAllSessions(DidOpen(s, host, docs[0]), host, docs[1..]);
    }
  }

  /** The fallback keeps the sessions invariant. */
  lemma FallbackSessions(s: State, host: Host)
    requires Sessions(s)
    ensures Sessions(Fallback(s, host))
  {
    if |s.clients| == 0 && host.folders.Some? && |host.folders.value| == 1 {
      var s1 := s.(trace := s.trace + [Log(OnlyOneFolder)]);
      QuietKeepsSessions(s, s1);
      AddClientSessions(s1, host, host.folders.value[0]);
    } else {
      QuietKeepsSessions(s, Fallback(s, host));
    }
  }

  /** After activation, aborted or not, every launched client is its folder's
      entry and no folder has two clients. */
  lemma ActivateSessions(host: Host, docs: seq<TextDocument>, hostCommands: set<string>)
    ensures Sessions(Activate(host, docs, hostCommands))
  {
    var s0 := Initial(hostCommands);
    InitialSessions(hostCommands);
    if hostCommands !! StaticCommandSet() {
      OpenAllSessions(s0, host, docs);
      FallbackSessions(OpenAll(s0, host, docs), host);
    }
  }

  /** With several folders open and no PureScript file open, activation starts
      no client and logs one advisory line. */
  lemma SeveralFoldersDefer(host: Host, docs: seq<TextDocument>, hostCommands: set<string>)
    requires hostCommands !! StaticCommandSet()
    requires host.folders.Some? && |host.folders.value| > 1
    requires forall i :: 0 <= i < |docs| ==> !Qualifies(docs[i])
    ensures Activate(host, docs, hostCommands).clients == map[]
    ensures Log(SeveralFolders) in Activate(host, docs, hostCommands).trace
  {
    var s0 := Initial(hostCommands);
    OpenAllOutcome(s0, host, docs);
    assert OwnedKeys(host, docs) == {};
    var s1 := OpenAll(s0, host, docs);
    var r := Fallback(s1, host);
    assert r.trace[|r.trace| - 1] == Log(SeveralFolders);
  }

  /** With exactly one folder open and no construction failing, activation
      ends with a client for that folder and for no other. */
  lemma SingleFolderStarts(host: Host, docs: seq<TextDocument>, hostCommands: set<string>)
    requires hostCommands !! StaticCommandSet()
    requires host.folders.Some? && |host.folders.value| == 1
    requires WellFormed(host)
    requires host.failing == {}
    ensures Activate(host, docs, hostCommands).clients.Keys == {Key(host.folders.value[0])}
  {
    var s0 := Initial(hostCommands);
    assert Activate(host, docs, hostCommands) == Fallback(OpenAll(s0, host, docs), host);
    SingleFolderReplay(s0, host, docs);
  }

  /** From a state without clients, replaying the documents and falling back on
      a host with one folder and no failing construction leaves exactly that
      folder's client. */
  lemma SingleFolderReplay(s: State, host: Host, docs: seq<TextDocument>)
    requires Coherent(s) && s.clients == map[]
    requires host.folders.Some? && |host.folders.value| == 1
    requires WellFormed(host)
    requires host.failing == {}
    ensures Fallback(OpenAll(s, host, docs), host).clients.Keys == {Key(host.folders.value[0])}
  {
    var f := host.folders.value[0];
    OpenAllOutcome(s, host, docs);
    var s1 := OpenAll(s, host, docs);
    OwnersOfSingleFolder(host, docs);
    assert s1.clients.Keys <= {Key(f)};
    if |s1.clients| > 0 {
      var k :| k in s1.clients;
      assert s1.clients.Keys == {Key(f)};
    }
  }

  /** On a well-formed host with one folder, every owned document lies in it. */
  lemma OwnersOfSingleFolder(host: Host, docs: seq<TextDocument>)
    requires WellFormed(host) && |FolderList(host)| == 1
    ensures OwnedKeys(host, docs) <= {Key(FolderList(host)[0])}
  {
    var f := FolderList(host)[0];
    forall u | u in host.owner ensures host.owner[u] == f {
      assert host.owner[u] in FolderList(host);
    }
  }

  /**
   The loop of `deactivate`: one stop per registry entry, in the order the
   entries are visited, which `visited` returns.
   */
  method StopAll(clients: map<string, ClientId>) returns (stops: seq<Effect>, visited: seq<string>)
    ensures |stops| == |visited| == |clients|
    ensures Distinct(visited)
    ensures forall i :: 0 <= i < |visited| ==> visited[i] in clients && stops[i] == Stop(clients[visited[i]])
    ensures forall k :: k in clients ==> k in visited
  {
    var rest := clients.Keys;
    stops := [];
    visited := [];
    while rest != {}
      invariant rest <= clients.Keys
      invariant |visited| == |stops|
      invariant forall i :: 0 <= i < |visited| ==> visited[i] in clients && visited[i] !in rest
      invariant forall i :: 0 <= i < |stops| ==> stops[i] == Stop(clients[visited[i]])
      invariant forall k :: k in clients && k !in rest ==> k in visited
      invariant Distinct(visited)
      invariant |visited| + |rest| == |clients.Keys|
      decreases rest
    {
      var k :| k in rest;
      DistinctAppend(visited, k);
      stops := stops + [Stop(clients[k])];
      visited := visited + [k];
      rest := rest - {k};
    }
  }

  /**
   `deactivate`: exactly one stop per registry entry, and nothing else. Every
   client in the registry is stopped, only registered clients are stopped, and
   with one client per key no client is stopped twice. The registry itself is
   left as it was.
   */
  method Deactivate(s: State) returns (r: State)
    ensures r.(trace := s.trace) == s
    ensures s.trace <= r.trace
    ensures |r.trace| == |s.trace| + |s.clients|
    ensures forall i :: |s.trace| <= i < |r.trace| ==> r.trace[i].Stop? && r.trace[i].client in s.clients.Values
    ensures forall k :: k in s.clients ==> Stop(s.clients[k]) in r.trace[|s.trace|..]
    ensures Injective(s.clients) ==> Distinct(r.trace[|s.trace|..])
  {
    var stops, visited := StopAll(s.clients);
    StopsCoverRegistry(s.clients, visited, stops);
    r := s.(trace := s.trace + stops);
    assert r.trace[|s.trace|..] == stops;
  }

  /** The stops issued for every key of a registry, once per key: they name
      only registered clients, every registered client, and, with one client
      per key, no client twice. */
  lemma StopsCoverRegistry(clients: map<string, ClientId>, keys: seq<string>, stops: seq<Effect>)
    requires |keys| == |stops| && Distinct(keys)
    requires forall i :: 0 <= i < |keys| ==> keys[i] in clients && stops[i] == Stop(clients[keys[i]])
    requires forall k :: k in clients ==> k in keys
    ensures forall i :: 0 <= i < |stops| ==> stops[i].Stop? && stops[i].client in clients.Values
    ensures forall k :: k in clients ==> Stop(clients[k]) in stops
    ensures Injective(clients) ==> Distinct(stops)
  {
    forall k | k in clients ensures Stop(clients[k]) in stops {
      var i :| 0 <= i < |keys| && keys[i] == k;
      assert stops[i] == Stop(clients[k]);
    }
    if Injective(clients) {
      forall i, j | 0 <= i < j < |stops| ensures stops[i] != stops[j] {
        assert keys[i] != keys[j];
      }
    }
  }
}

=== FILE: machine.dfy ===
/**
 The extension as one state machine: after activation the host delivers a
 sequence of events, each handled to completion before the next. The lemmas
 here state what holds of every state reachable that way.
 */
module Machine {
  import opened Base
  import opened Workspace
  import opened Selector
  import opened Commands
  import opened Registry
  import opened Readiness
  import opened Routing
  import opened Lifecycle

  /** An event the host delivers, or a continuation the scheduler runs. */
  datatype Event =
    | Opened(doc: TextDocument)                                  // onDidOpenTextDocument
    | FoldersRemoved(removed: seq<WorkspaceFolder>)              // onDidChangeWorkspaceFolders
    | Ready(client: ClientId, activation: Option<seq<string>>)   // onReady resolved
    | ReadyFailed(client: ClientId)                              // onReady rejected
    | CommandsArrived(client: ClientId)                          // getCommands resolved
    | CommandsFailed(client: ClientId)                           // getCommands rejected
    | StaticInvoked(doc: TextDocument, command: string, args: seq<Arg>)
    | DynamicInvoked(doc: TextDocument, command: string, args: seq<Arg>)

  /** Which duplicate guard the readiness continuation uses: the list fetched
      before the suspension, as the source writes it, or the host's current
      names. */
  datatype Guard = AsWritten | Corrected

  /** Whether the event can occur in `s`: a continuation runs once for a
      client that is waiting for it, the analysis layer's names are the keys
      of one object and so distinct, and a command handler exists only for a
      registered name. */
  predicate Enabled(s: State, e: Event)
  {
    match e
    case Ready(id, activation) => id in s.starting && (activation.Some? ==> Distinct(activation.value))
    case ReadyFailed(id) => id in s.starting
    case CommandsArrived(id) => id in s.awaiting
    case CommandsFailed(id) => id in s.awaiting
    case StaticInvoked(_, command, _) => command in StaticCommandNames()
    case DynamicInvoked(_, command, _) => command in s.registered
    case _ => true
  }

  /** The handler of one event. Command registrations are only ever added,
      and effects are only ever appended. */
  function Step(s: State, host: Host, guard: Guard, e: Event): (r: State)
    requires Enabled(s, e)
    ensures s.registered <= r.registered
    ensures s.trace <= r.trace
    ensures s.attempts <= r.attempts
  {
    match e
    case Opened(doc) => DidOpen(s, host, doc)
    case FoldersRemoved(removed) => RemoveFolders(s, removed)
    case Ready(id, activation) => OnReady(s, id, activation)
    case ReadyFailed(id) => StartFailed(s, id)
    case CommandsArrived(id) =>
      if guard == AsWritten then CommandsListedAsWritten(s, id) else CommandsListed(s, id)
    case CommandsFailed(id) => CommandsListFailed(s, id)
    case StaticInvoked(doc, command, args) => RunStatic(s, host, doc, command, args)
    case DynamicInvoked(doc, command, args) => DispatchDynamic(s, host, doc, command, args)
  }

  /** Every event, with either guard, keeps ids issued, one folder per client,
      a client pending in one way at most, and every name registered at most
      once. */
  lemma StepCoherent(s: State, host: Host, guard: Guard, e: Event)
    requires Coherent(s) && Enabled(s, e)
    ensures Coherent(Step(s, host, guard, e))
  {
    match e
    case Opened(doc) => DidOpenValid(s, host, doc);
    case FoldersRemoved(removed) => RemoveFoldersValid(s, removed);
    case Ready(id, activation) => OnReadyValid(s, id, activation);
    case ReadyFailed(id) => StartFailedValid(s, id);
    case CommandsArrived(id) =>
      if guard == AsWritten {
        CommandsListedAsWrittenCoherent(s, id);
      } else {
        CommandsListedValid(s, id);
      }
    case CommandsFailed(id) => CommandsListFailedValid(s, id);
    case StaticInvoked(doc, command, args) => RunStaticValid(s, host, doc, command, args);
    case DynamicInvoked(doc, command, args) => DispatchDynamicValid(s, host, doc, command, args);
  }

  /** With the corrected guard every event keeps the whole invariant: in
      addition, no registration is ever refused. */
  lemma StepValid(s: State, host: Host, e: Event)
    requires Valid(s) && Enabled(s, e)
    ensures Valid(Step(s, host, Corrected, e))
  {
    match e
    case Opened(doc) => DidOpenValid(s, host, doc);
    case FoldersRemoved(removed) => RemoveFoldersValid(s, removed);
    case Ready(id, activation) => OnReadyValid(s, id, activation);
    case ReadyFailed(id) => StartFailedValid(s, id);
    case CommandsArrived(id) => CommandsListedValid(s, id);
    case CommandsFailed(id) => CommandsListFailedValid(s, id);
    case StaticInvoked(doc, command, args) => RunStaticValid(s, host, doc, command, args);
    case DynamicInvoked(doc, command, args) => DispatchDynamicValid(s, host, doc, command, args);
  }

  /** With either guard and any host, every event keeps the sessions
      invariant: a client is launched only for a folder without one, and a
      folder's client leaves the registry only when it is stopped. */
  lemma StepSessions(s: State, host: Host, guard: Guard, e: Event)
    requires Sessions(s) && Enabled(s, e)
    ensures Sessions(Step(s, host, guard, e))
  {
    var r := Step(s, host, guard, e);
    match e
    case Opened(doc) => DidOpenSessions(s, host, doc);
    case FoldersRemoved(removed) => RemoveFoldersSessions(s, removed);
    case _ => QuietKeepsSessions(s, r);
  }

  /** Every event of the run is enabled when it arrives. `hosts[i]` is the
      host as the `i`-th event finds it: its folder list and folder lookup may
      change from one event to the next, as they do when folders are removed
      or added. */
  predicate Runnable(s: State, hosts: seq<Host>, guard: Guard, events: seq<Event>)
    decreases |events|
  {
    && |hosts| == |events|
    && (|events| == 0 || (Enabled(s, events[0]) && Runnable(Step(s, hosts[0], guard, events[0]), hosts[1..], guard, events[1..])))
  }

  /** The state after a run of events. */
  function Run(s: State, hosts: seq<Host>, guard: Guard, events: seq<Event>): State
    requires Runnable(s, hosts, guard, events)
    decreases |events|
  {
    if |events| == 0 then s else Run(Step(s, hosts[0], guard, events[0]), hosts[1..], guard, events[1..])
  }

  /**
   Along any run, with either guard, the state stays coherent: no client under
   two folders, every name registered with the host at most once, registrations
   never withdrawn, effects only appended.
   */
  lemma {:induction false} RunCoherent(s: State, hosts: seq<Host>, guard: Guard, events: seq<Event>)
    requires Coherent(s) && Runnable(s, hosts, guard, events)
    ensures Coherent(Run(s, hosts, guard, events))
    ensures s.registered <= Run(s, hosts, guard, events).registered
    ensures s.trace <= Run(s, hosts, guard, events).trace
    decreases |events|
  {
    if |events| > 0 {
      StepCoherent(s, hosts[0], guard, events[0]);
      RunCoherent(Step(s, hosts[0], guard, events[0]), hosts[1..], guard, events[1..]);
    }
  }

  /** Along any run, with either guard and whatever hosts the events find,
      every client launched is still its folder's entry or was stopped, and a
      folder's next client is launched only after its previous one was
      stopped. */
  lemma {:induction false} RunSessions(s: State, hosts: seq<Host>, guard: Guard, events: seq<Event>)
    requires Sessions(s) && Runnable(s, hosts, guard, events)
    ensures Sessions(Run(s, hosts, guard, events))
    decreases |events|
  {
    if |events| > 0 {
      StepSessions(s, hosts[0], guard, events[0]);
      RunSessions(Step(s, hosts[0], guard, events[0]), hosts[1..], guard, events[1..]);
    }
  }

  /** Along any run with the corrected guard the state stays valid: in
      addition, the host never refuses a registration. */
  lemma {:induction false} RunValid(s: State, hosts: seq<Host>, events: seq<Event>)
    requires Valid(s) && Runnable(s, hosts, Corrected, events)
    ensures Valid(Run(s, hosts, Corrected, events))
    decreases |events|
  {
    if |events| > 0 {
      StepValid(s, hosts[0], events[0]);
      RunValid(Step(s, hosts[0], Corrected, events[0]), hosts[1..], events[1..]);
    }
  }

  /**
   From activation on, whatever the host does, however its folders change
   between events, and with either guard: no command name is ever registered
   twice, no client serves two folders, every client launched is still its
   folder's entry or was stopped, a folder gets a new client only after its
   previous one was stopped, and what activation registered stays registered.
   If activation completed, that is every static command. With the corrected
   guard after a completed activation, the host never refuses a registration.
   */
  lemma ReachableFromActivation(host: Host, docs: seq<TextDocument>, hostCommands: set<string>,
                                guard: Guard, hosts: seq<Host>, events: seq<Event>)
    requires Runnable(Activate(host, docs, hostCommands), hosts, guard, events)
    ensures var r := Run(Activate(host, docs, hostCommands), hosts, guard, events);
      && (forall i, j :: 0 <= i < j < |r.trace| && r.trace[i].Register? && r.trace[j].Register?
            ==> r.trace[i].command != r.trace[j].command)
      && Injective(r.clients)
      && Accounted(r) && RelaunchOnlyAfterStop(r.trace)
      && Initial(hostCommands).registered <= r.registered
      && (hostCommands !! StaticCommandSet() ==> StaticCommandSet() <= r.registered)
      && (hostCommands !! StaticCommandSet() && guard == Corrected ==> NoRejection(r.trace))
  {
    var a := Activate(host, docs, hostCommands);
    RunCoherent(a, hosts, guard, events);
    ActivateSessions(host, docs, hostCommands);
    RunSessions(a, hosts, guard, events);
    if hostCommands !! StaticCommandSet() && guard == Corrected {
      RunValid(a, hosts, events);
    }
  }

  /** Two clients become ready with the same single dynamic name, then both
      continuations resume, in the same order. */
  function RaceEvents(name: string): seq<Event>
  {
    [Ready(0, Some([name])), Ready(1, Some([name])), CommandsArrived(0), CommandsArrived(1)]
  }

  /** With clients 0 and 1 both starting, the race's events can all be
      delivered whatever the hosts they find, and the run is the two halves of
      each continuation in turn. */
  lemma RaceRun(a: State, hosts: seq<Host>, guard: Guard, name: string)
    requires 0 in a.starting && 1 in a.starting
    requires |hosts| == 4
    ensures Runnable(a, hosts, guard, RaceEvents(name))
    ensures var w1 := OnReady(OnReady(a, 0, Some([name])), 1, Some([name]));
      Run(a, hosts, guard, RaceEvents(name)) ==
        if guard == AsWritten then CommandsListedAsWritten(CommandsListedAsWritten(w1, 0), 1)
        else CommandsListed(CommandsListed(w1, 0), 1)
  {
    var events := RaceEvents(name);
    var s1 := Step(a, hosts[0], guard, events[0]);
    var s2 := Step(s1, hosts[1], guard, events[1]);
    var s3 := Step(s2, hosts[2], guard, events[2]);
    var s4 := Step(s3, hosts[3], guard, events[3]);
    var e3 := [CommandsArrived(1)];
    var e2 := [CommandsArrived(0)] + e3;
    var e1 := [Ready(1, Some([name]))] + e2;
    var h1, h2, h3 := hosts[1..], hosts[2..], hosts[3..];
    assert events[1..] == e1 && e1[1..] == e2 && e2[1..] == e3 && e3[1..] == [];
    assert h1[1..] == h2 && h2[1..] == h3 && h3[1..] == [];
    assert h1[0] == hosts[1] && h2[0] == hosts[2] && h3[0] == hosts[3];
    assert Runnable(s4, [], guard, []) && Run(s4, [], guard, []) == s4;
    assert Runnable(s3, h3, guard, e3) && Run(s3, h3, guard, e3) == s4;
    assert Runnable(s2, h2, guard, e2) && Run(s2, h2, guard, e2) == s4;
    assert Runnable(s1, h1, guard, e1) && Run(s1, h1, guard, e1) == s4;
  }

  /** From any state where clients 0 and 1 are starting and the name is new to
      the host, the race draws a refusal as written; from a valid state the
      corrected run draws none. */
  lemma RaceOutcome(a: State, hosts: seq<Host>, name: string)
    requires 0 in a.starting && 1 in a.starting
    requires name !in a.registered
    requires |hosts| == 4
    ensures Runnable(a, hosts, AsWritten, RaceEvents(name)) && Runnable(a, hosts, Corrected, RaceEvents(name))
    ensures RegisterRejected(name) in Run(a, hosts, AsWritten, RaceEvents(name)).trace
    ensures Valid(a) ==> NoRejection(Run(a, hosts, Corrected, RaceEvents(name)).trace)
  {
    RaceRun(a, hosts, AsWritten, name);
    RaceRun(a, hosts, Corrected, name);
    StaleListRegistersTwice(a, 0, 1, name);
    if Valid(a) {
      LiveCheckRegistersOnce(a, 0, 1, name);
    }
    var w1 := OnReady(OnReady(a, 0, Some([name])), 1, Some([name]));
    var w2 := CommandsListedAsWritten(w1, 0);
    var w3 := CommandsListedAsWritten(w2, 1);
    var k :| 0 <= k < |w3.trace[|w2.trace|..]| && w3.trace[|w2.trace|..][k] == RegisterRejected(name);
    assert w3.trace[|w2.trace| + k] == RegisterRejected(name);
  }

  /**
   The refusal is reachable from activation. Two folders each own an open
   PureScript file, so activation starts both clients. Both become ready with
   the same new dynamic name, and both continuations resume only after both
   fetched the host's command list, whatever the host looks like by then. As
   written, the second registration of the name is refused; with the corrected
   guard nothing is refused.
   */
  lemma StaleGuardRefusesAfterActivation(host: Host, da: TextDocument, db: TextDocument, hostCommands: set<string>,
                                          name: string, hosts: seq<Host>)
    requires hostCommands !! StaticCommandSet()
    requires name !in hostCommands && name !in StaticCommandSet()
    requires host.failing == {}
    requires Qualifies(da) && da.uri in host.owner && Qualifies(db) && db.uri in host.owner
    requires Key(host.owner[da.uri]) != Key(host.owner[db.uri])
    requires |hosts| == 4
    ensures var a := Activate(host, [da, db], hostCommands);
      && Runnable(a, hosts, AsWritten, RaceEvents(name))
      && Runnable(a, hosts, Corrected, RaceEvents(name))
      && RegisterRejected(name) in Run(a, hosts, AsWritten, RaceEvents(name)).trace
      && NoRejection(Run(a, hosts, Corrected, RaceEvents(name)).trace)
  {
    var a := Activate(host, [da, db], hostCommands);
    ActivationStartsBoth(host, da, db, hostCommands);
    RaceOutcome(a, hosts, name);
  }

  /** Activation with two open PureScript files in two folders, on a host
      where no construction throws, starts one client per folder: ids 0 and 1,
      both waiting for readiness. */
  lemma ActivationStartsBoth(host: Host, da: TextDocument, db: TextDocument, hostCommands: set<string>)
    requires hostCommands !! StaticCommandSet()
    requires host.failing == {}
    requires Qualifies(da) && da.uri in host.owner && Qualifies(db) && db.uri in host.owner
    requires Key(host.owner[da.uri]) != Key(host.owner[db.uri])
    ensures var a := Activate(host, [da, db], hostCommands);
      && a.starting == map[0 := Key(host.owner[da.uri]), 1 := Key(host.owner[db.uri])]
      && a.registered == hostCommands + StaticCommandSet()
  {
    var s0 := Initial(hostCommands);
    assert Activate(host, [da, db], hostCommands) == Fallback(OpenAll(s0, host, [da, db]), host);
    TwoOpensStartBoth(s0, host, da, db);
  }

  /** From a state without clients or attempts, opening two PureScript files of
      two folders starts clients 0 and 1, and the fallback then does nothing. */
  lemma TwoOpensStartBoth(s: State, host: Host, da: TextDocument, db: TextDocument)
    requires s.clients == map[] && s.starting == map[] && s.attempts == 0
    requires host.failing == {}
    requires Qualifies(da) && da.uri in host.owner && Qualifies(db) && db.uri in host.owner
    requires Key(host.owner[da.uri]) != Key(host.owner[db.uri])
    ensures var r := Fallback(OpenAll(s, host, [da, db]), host);
      && r.starting == map[0 := Key(host.owner[da.uri]), 1 := Key(host.owner[db.uri])]
      && r.registered == s.registered
  {
    var s1 := DidOpen(s, host, da);
    var s2 := DidOpen(s1, host, db);
    assert [da, db][1..] == [db] && [db][1..] == [];
    assert OpenAll(s1, host, [db]) == OpenAll(s2, host, []);
    assert OpenAll(s, host, [da, db]) == s2;
    assert Key(host.owner[da.uri]) in s2.clients;
  }

  /**
   Two folders, no PureScript file open at activation: no client starts.
   Opening a PureScript file that the host places in the second folder then
   starts exactly one client, for that folder, whose selector serves exactly
   the PureScript files below that folder's root.
   */
  lemma OpenInSecondFolder(host: Host, hostCommands: set<string>, doc: TextDocument)
    requires hostCommands !! StaticCommandSet()
    requires WellFormed(host) && host.folders.Some? && |host.folders.value| == 2
    requires Qualifies(doc) && doc.uri in host.owner && host.owner[doc.uri] == host.folders.value[1]
    requires host.failing == {}
    ensures var s := Activate(host, [], hostCommands);
      var r := Step(s, host, AsWritten, Opened(doc));
      && s.clients == map[]
      && r.clients.Keys == {Key(host.folders.value[1])}
      && r.trace[|r.trace| - 1] == Launched(s.attempts, Key(host.folders.value[1]), ClientOptionsFor(host.folders.value[1]))
      && (forall d: TextDocument :: d.uri.scheme == FileScheme ==>
            (SelectorMatches(ClientOptionsFor(host.folders.value[1]).selector, d) <==>
             (d.languageId == PureScript && UnderRoot(FsPath(host.folders.value[1].uri), d.uri.path))))
  {
    var b := host.folders.value[1];
    var s := Activate(host, [], hostCommands);
    SeveralFoldersDefer(host, [], hostCommands);
    FirstOpenLaunches(s, host, doc);
    forall d: TextDocument | d.uri.scheme == FileScheme
      ensures SelectorMatches(ClientOptionsFor(b).selector, d) <==>
              (d.languageId == PureScript && UnderRoot(FsPath(b.uri), d.uri.path))
    {
      FileScope(b, d);
    }
  }

  /** From a state without clients, opening a PureScript file the host places
      in a folder, on a host where no construction throws, starts exactly that
      folder's client, and the launch is the last effect. */
  lemma FirstOpenLaunches(s: State, host: Host, doc: TextDocument)
    requires s.clients == map[]
    requires Qualifies(doc) && doc.uri in host.owner
    requires host.failing == {}
    ensures var f := host.owner[doc.uri];
      var r := Step(s, host, AsWritten, Opened(doc));
      && r.clients.Keys == {Key(f)}
      && r.trace[|r.trace| - 1] == Launched(s.attempts, Key(f), ClientOptionsFor(f))
  {
    var r := AddClient(s, host, host.owner[doc.uri]);
    assert |r.trace| - 1 == |s.trace| + 1;
  }
}

=== FILE: readiness.dfy ===
/**
 The readiness continuation of a client (`client.onReady().then(...)`), as two
 discrete events split at its one suspension point, the wait for the host's
 command list:
 - `OnReady`: the ready line is logged, the analysis layer hands back the
   client's dynamic commands, and the host is asked for its command names;
 - `CommandsListed`: the command table is recorded for the folder and every
   dynamic name the host does not know yet is registered;
 - `CommandsListFailed`: the host's command list was not delivered.
 A rejected readiness, a throwing `activatePS` and a failed command-list query
 are caught and logged. A refused registration is not: it happens inside a
 `Promise.all` nobody awaits, so it escapes the catch and no log line follows.
 */
module Readiness {
  import opened Base
  import opened Registry

  /**
   The first half of the continuation for client `id`. `activation` is what
   the analysis layer returns: the client's dynamic command names, or `None`
   when it throws, in which case the exception is logged and the continuation
   ends. The registry is not consulted: the continuation also runs for a client
   whose folder was removed meanwhile.
   */
  function OnReady(s: State, id: ClientId, activation: Option<seq<string>>): (r: State)
    requires id in s.starting
    ensures id !in r.starting && r.starting == s.starting - {id}
    ensures r.clients == s.clients && r.commandCode == s.commandCode && r.registered == s.registered
    ensures r.attempts == s.attempts
    ensures activation.None? ==>
      r.awaiting == s.awaiting && r.trace == s.trace + [Log(ActivatedFor(s.starting[id])), Log(Caught)]
    ensures activation.Some? ==>
      && r.awaiting == s.awaiting[id := Continuation(s.starting[id], activation.value, s.registered)]
      && r.trace == s.trace + [Log(ActivatedFor(s.starting[id]))]
  {
    var key := s.starting[id];
    var s1 := s.(starting := s.starting - {id}, trace := s.trace + [Log(ActivatedFor(key))]);
    match activation
    case None => s1.(trace := s1.trace + [Log(Caught)])
    case Some(names) => s1.(awaiting := s1.awaiting[id := Continuation(key, names, s.registered)])
  }

  /** The client never became ready: the rejection is caught and logged. */
  function StartFailed(s: State, id: ClientId): (r: State)
    requires id in s.starting
    ensures id !in r.starting && r.starting == s.starting - {id}
    ensures r.trace == s.trace + [Log(Caught)]
    ensures r.clients == s.clients && SameCommands(s, r) && r.attempts == s.attempts
  {
    s.(starting := s.starting - {id}, trace := s.trace + [Log(Caught)])
  }

  /**
   The registration loop as the source writes it: a name is skipped when it
   appears in `listed`, the host command list obtained before the suspension;
   every other name is handed to the host. Each effect is for a name of
   `names` missing from `listed`: a registration of a name the host did not
   know, or a refusal, which for distinct names means the host already knew it.
   */
  function RegisterUnlisted(s: State, names: seq<string>, listed: set<string>): (r: State)
    ensures r.registered == s.registered + (Elements(names) - listed)
    ensures s.trace <= r.trace
    ensures forall i :: |s.trace| <= i < |r.trace| ==>
      && (r.trace[i].Register? || r.trace[i].RegisterRejected?)
      && r.trace[i].command in names && r.trace[i].command !in listed
    ensures forall i :: |s.trace| <= i < |r.trace| && r.trace[i].Register? ==> r.trace[i].command !in s.registered
    ensures Distinct(names) ==>
      forall i :: |s.trace| <= i < |r.trace| && r.trace[i].RegisterRejected? ==> r.trace[i].command in s.registered
    ensures r.clients == s.clients && r.commandCode == s.commandCode && r.starting == s.starting
    ensures r.awaiting == s.awaiting && r.attempts == s.attempts
    decreases |names|
  {
    if |names| == 0 then
      s
    else
      var s1 := if names[0] in listed then s else HostRegister(s, names[0]);
      var r := RegisterUnlisted(s1, names[1..], listed);
      ElementsSplit(names);
      assert forall i :: |s.trace| <= i < |r.trace| ==>
        r.trace[i].command in names && r.trace[i].command !in listed by {
        forall i | |s.trace| <= i < |r.trace| ensures r.trace[i].command in names && r.trace[i].command !in listed {
          if i >= |s1.trace| {
            assert r.trace[i].command in names[1..];
          }
        }
      }
      assert Distinct(names) ==> forall i :: |s.trace| <= i < |r.trace| && r.trace[i].RegisterRejected? ==>
        r.trace[i].command in s.registered by {
        if Distinct(names) {
          assert Distinct(names[1..]);
          forall i | |s.trace| <= i < |r.trace| && r.trace[i].RegisterRejected?
            ensures r.trace[i].command in s.registered
          {
            if i >= |s1.trace| {
              var j :| 0 <= j < |names[1..]| && names[1..][j] == r.trace[i].command;
              assert names[j + 1] != names[0];
            }
          }
        }
      }
      r
  }

  /** Every name of `names` missing from `listed` is handed to the host: a
      name the host did not know is registered, and one it knew is refused. */
  lemma {:induction false} RegisterUnlistedComplete(s: State, names: seq<string>, listed: set<string>, n: string)
    requires n in names && n !in listed
    ensures n !in s.registered ==> Register(n) in RegisterUnlisted(s, names, listed).trace[|s.trace|..]
    ensures n in s.registered ==> RegisterRejected(n) in RegisterUnlisted(s, names, listed).trace[|s.trace|..]
    decreases |names|
  {
    var r := RegisterUnlisted(s, names, listed);
    var s1 := if names[0] in listed then s else HostRegister(s, names[0]);
    assert r == RegisterUnlisted(s1, names[1..], listed);
    if n == names[0] {
      assert r.trace[|s.trace|] == s1.trace[|s.trace|];
      assert r.trace[|s.trace|..][0] == r.trace[|s.trace|];
    } else {
      assert n in names[1..];
      assert n in s.registered <==> n in s1.registered;
      RegisterUnlistedComplete(s1, names[1..], listed, n);
      var e := if n in s.registered then RegisterRejected(n) else Register(n);
      var j :| 0 <= j < |r.trace[|s1.trace|..]| && r.trace[|s1.trace|..][j] == e;
      assert r.trace[|s.trace|..][j + |s1.trace| - |s.trace|] == e;
    }
  }

  /** The loop as written never registers a name twice: the host refuses a
      second registration instead. */
  lemma {:induction false} RegisterUnlistedCoherent(s: State, names: seq<string>, listed: set<string>)
    requires RegisteredOnce(s)
    ensures RegisteredOnce(RegisterUnlisted(s, names, listed))
    decreases |names|
  {
    if |names| > 0 {
      var s1 := if names[0] in listed then s else HostRegister(s, names[0]);
      if names[0] !in listed {
        HostRegisterKeeps(s, names[0]);
      }
      RegisterUnlistedCoherent(s1, names[1..], listed);
    }
  }

  /**
   The registration loop with the duplicate guard evaluated against the host's
   current command names: a name is registered only if the host does not know
   it at that moment.
   */
  function RegisterAbsent(s: State, names: seq<string>): (r: State)
    ensures r.registered == s.registered + Elements(names)
    ensures s.trace <= r.trace
    ensures forall i :: |s.trace| <= i < |r.trace| ==>
      r.trace[i].Register? && r.trace[i].command in names && r.trace[i].command !in s.registered
    ensures r.clients == s.clients && r.commandCode == s.commandCode && r.starting == s.starting
    ensures r.awaiting == s.awaiting && r.attempts == s.attempts
    decreases |names|
  {
    if |names| == 0 then
      s
    else
      var s1 := if names[0] in s.registered then s else HostRegister(s, names[0]);
      var r := RegisterAbsent(s1, names[1..]);
      ElementsSplit(names);
      assert forall i :: |s.trace| <= i < |r.trace| ==>
        r.trace[i].Register? && r.trace[i].command in names && r.trace[i].command !in s.registered by {
        forall i | |s.trace| <= i < |r.trace|
          ensures r.trace[i].Register? && r.trace[i].command in names && r.trace[i].command !in s.registered
        {
          if i >= |s1.trace| {
            assert r.trace[i].command in names[1..];
          }
        }
      }
      r
  }

  /** Over names the host already knows the live-checked loop does nothing, so
      running it a second time changes nothing. */
  lemma {:induction false} RegisterAbsentKnown(s: State, names: seq<string>)
    requires Elements(names) <= s.registered
    ensures RegisterAbsent(s, names) == s
    decreases |names|
  {
    if |names| > 0 {
      ElementsSplit(names);
      RegisterAbsentKnown(s, names[1..]);
    }
  }

  /** Every dynamic name the host did not know is registered by the loop. */
  lemma {:induction false} RegisterAbsentComplete(s: State, names: seq<string>, n: string)
    requires n in names && n !in s.registered
    ensures Register(n) in RegisterAbsent(s, names).trace[|s.trace|..]
    decreases |names|
  {
    var r := RegisterAbsent(s, names);
    var s1 := if names[0] in s.registered then s else HostRegister(s, names[0]);
    assert r == RegisterAbsent(s1, names[1..]);
    if n == names[0] {
      assert s1.trace == s.trace + [Register(n)];
      assert r.trace[|s.trace|] == Register(n);
    } else {
      assert n in names[1..];
      RegisterAbsentComplete(s1, names[1..], n);
      var j :| 0 <= j < |r.trace[|s1.trace|..]| && r.trace[|s1.trace|..][j] == Register(n);
      assert r.trace[|s.trace|..][j + |s1.trace| - |s.trace|] == Register(n);
    }
  }

  /** Registering only absent names keeps every name registered at most once
      and never draws a refusal from the host. */
  lemma {:induction false} RegisterAbsentValid(s: State, names: seq<string>)
    requires RegisteredOnce(s)
    ensures RegisteredOnce(RegisterAbsent(s, names))
    ensures NoRejection(s.trace) ==> NoRejection(RegisterAbsent(s, names).trace)
    decreases |names|
  {
    if |names| > 0 {
      var s1 := if names[0] in s.registered then s else HostRegister(s, names[0]);
      if names[0] !in s.registered {
        HostRegisterKeeps(s, names[0]);
      }
      RegisterAbsentValid(s1, names[1..]);
    }
  }

  /**
   The second half of the continuation as the source writes it. The folder's
   command table is replaced by the client's and the continuation ends. Every
   dynamic name missing from the list fetched before the suspension is handed
   to the host: a name the host did not know is registered, and (for the
   distinct names `Object.keys` yields) a name it knew is refused.
   */
  function CommandsListedAsWritten(s: State, id: ClientId): (r: State)
    requires id in s.awaiting
    ensures id !in r.awaiting && r.awaiting == s.awaiting - {id}
    ensures r.commandCode == s.commandCode[s.awaiting[id].key := CommandTable(id, s.awaiting[id].names)]
    ensures r.registered == s.registered + (Elements(s.awaiting[id].names) - s.awaiting[id].listed)
    ensures s.trace <= r.trace
    ensures forall i :: |s.trace| <= i < |r.trace| ==>
      && (r.trace[i].Register? || r.trace[i].RegisterRejected?)
      && r.trace[i].command in s.awaiting[id].names && r.trace[i].command !in s.awaiting[id].listed
    ensures forall i :: |s.trace| <= i < |r.trace| && r.trace[i].Register? ==> r.trace[i].command !in s.registered
    ensures Distinct(s.awaiting[id].names) ==>
      forall i :: |s.trace| <= i < |r.trace| && r.trace[i].RegisterRejected? ==> r.trace[i].command in s.registered
    ensures r.clients == s.clients && r.starting == s.starting && r.attempts == s.attempts
  {
    var c := s.awaiting[id];
    var s1 := s.(awaiting := s.awaiting - {id}, commandCode := s.commandCode[c.key := CommandTable(id, c.names)]);
    RegisterUnlisted(s1, c.names, c.listed)
  }

  /** As written, a dynamic name missing from the stale list is refused when
      the host already knows it, and registered when it does not. */
  lemma CommandsListedAsWrittenHandsOver(s: State, id: ClientId, n: string)
    requires id in s.awaiting
    requires n in s.awaiting[id].names && n !in s.awaiting[id].listed
    ensures n in s.registered ==> RegisterRejected(n) in CommandsListedAsWritten(s, id).trace[|s.trace|..]
    ensures n !in s.registered ==> Register(n) in CommandsListedAsWritten(s, id).trace[|s.trace|..]
  {
    var c := s.awaiting[id];
    var s1 := s.(awaiting := s.awaiting - {id}, commandCode := s.commandCode[c.key := CommandTable(id, c.names)]);
    RegisterUnlistedComplete(s1, c.names, c.listed, n);
  }

  /**
   The second half of the continuation with the duplicate guard checked
   against the host's current names. The folder's command table is replaced
   by the client's, whether or not the folder still has that client; every
   dynamic name ends up registered; a registration is issued exactly for the
   names the host did not know, and none is refused.
   */
  function CommandsListed(s: State, id: ClientId): (r: State)
    requires id in s.awaiting
    ensures id !in r.awaiting && r.awaiting == s.awaiting - {id}
    ensures r.commandCode == s.commandCode[s.awaiting[id].key := CommandTable(id, s.awaiting[id].names)]
    ensures r.registered == s.registered + Elements(s.awaiting[id].names)
    ensures s.trace <= r.trace
    ensures forall i :: |s.trace| <= i < |r.trace| ==>
      r.trace[i].Register? && r.trace[i].command in s.awaiting[id].names && r.trace[i].command !in s.registered
    ensures r.clients == s.clients && r.starting == s.starting && r.attempts == s.attempts
  {
    var c := s.awaiting[id];
    var s1 := s.(awaiting := s.awaiting - {id}, commandCode := s.commandCode[c.key := CommandTable(id, c.names)]);
    RegisterAbsent(s1, c.names)
  }

  /**
   The wait for the host's command list rejects. The catch logs the error and
   the continuation ends: the folder's command table is not recorded and no
   dynamic name is registered.
   */
  function CommandsListFailed(s: State, id: ClientId): (r: State)
    requires id in s.awaiting
    ensures id !in r.awaiting && r.awaiting == s.awaiting - {id}
    ensures r.trace == s.trace + [Log(Caught)]
    ensures r.commandCode == s.commandCode && r.registered == s.registered
    ensures r.clients == s.clients && r.starting == s.starting && r.attempts == s.attempts
  {
    s.(awaiting := s.awaiting - {id}, trace := s.trace + [Log(Caught)])
  }

  /** A failed command-list query keeps the whole invariant. */
  lemma CommandsListFailedValid(s: State, id: ClientId)
    requires Coherent(s) && id in s.awaiting
    ensures Coherent(CommandsListFailed(s, id))
    ensures Valid(s) ==> Valid(CommandsListFailed(s, id))
  {
    RegisteredOnceExtend(s, CommandsListFailed(s, id));
  }

  /** A dynamic name the host did not know when the continuation resumed is
      registered by it. */
  lemma CommandsListedRegistersAbsent(s: State, id: ClientId, n: string)
    requires id in s.awaiting
    requires n in s.awaiting[id].names && n !in s.registered
    ensures Register(n) in CommandsListed(s, id).trace[|s.trace|..]
  {
    var c := s.awaiting[id];
    var s1 := s.(awaiting := s.awaiting - {id}, commandCode := s.commandCode[c.key := CommandTable(id, c.names)]);
    RegisterAbsentComplete(s1, c.names, n);
  }

  /** Registrations are never undone: both halves only add names. */
  lemma ReadinessMonotone(s: State, id: ClientId, activation: Option<seq<string>>)
    ensures id in s.starting ==> s.registered <= OnReady(s, id, activation).registered
    ensures id in s.awaiting ==> s.registered <= CommandsListed(s, id).registered
    ensures id in s.awaiting ==> s.registered <= CommandsListedAsWritten(s, id).registered
  {
  }

  lemma OnReadyValid(s: State, id: ClientId, activation: Option<seq<string>>)
    requires Coherent(s) && id in s.starting
    ensures Coherent(OnReady(s, id, activation))
    ensures Valid(s) ==> Valid(OnReady(s, id, activation))
  {
    RegisteredOnceExtend(s, OnReady(s, id, activation));
  }

  lemma StartFailedValid(s: State, id: ClientId)
    requires Coherent(s) && id in s.starting
    ensures Coherent(StartFailed(s, id))
    ensures Valid(s) ==> Valid(StartFailed(s, id))
  {
    RegisteredOnceExtend(s, StartFailed(s, id));
  }

  /** The corrected second half keeps the whole invariant. */
  lemma CommandsListedValid(s: State, id: ClientId)
    requires Coherent(s) && id in s.awaiting
    ensures Coherent(CommandsListed(s, id))
    ensures Valid(s) ==> Valid(CommandsListed(s, id))
  {
    var c := s.awaiting[id];
    var s1 := s.(awaiting := s.awaiting - {id}, commandCode := s.commandCode[c.key := CommandTable(id, c.names)]);
    RegisterAbsentValid(s1, c.names);
  }

  /** The second half as written keeps the invariant except for refusals: it
      may draw one, but it never registers a name twice. */
  lemma CommandsListedAsWrittenCoherent(s: State, id: ClientId)
    requires Coherent(s) && id in s.awaiting
    ensures Coherent(CommandsListedAsWritten(s, id))
  {
    var c := s.awaiting[id];
    var s1 := s.(awaiting := s.awaiting - {id}, commandCode := s.commandCode[c.key := CommandTable(id, c.names)]);
    RegisterUnlistedCoherent(s1, c.names, c.listed);
  }

  /**
   The race the source's guard misses. Two clients become ready one after the
   other and both returned the same dynamic name, unknown to the host. Both
   continuations fetch the host's command list before either has registered
   anything, so both lists lack the name: the first continuation registers
   it, and the second asks the host to register it again and is refused.
   */
  lemma StaleListRegistersTwice(s: State, a: ClientId, b: ClientId, name: string)
    requires a in s.starting && b in s.starting && a != b
    requires name !in s.registered
    ensures var s1 := OnReady(OnReady(s, a, Some([name])), b, Some([name]));
            var t := CommandsListedAsWritten(s1, a);
            var s2 := CommandsListedAsWritten(t, b);
            && Register(name) in t.trace[|s1.trace|..]
            && RegisterRejected(name) in s2.trace[|t.trace|..]
  {
    var h := OnReady(s, a, Some([name]));
    var s1 := OnReady(h, b, Some([name]));
    assert s1.registered == s.registered;
    assert s1.awaiting[a].listed == s.registered && s1.awaiting[b].listed == s.registered;
    CommandsListedAsWrittenHandsOver(s1, a, name);
    var t := CommandsListedAsWritten(s1, a);
    assert name in t.registered;
    assert t.awaiting[b] == s1.awaiting[b];
    CommandsListedAsWrittenHandsOver(t, b, name);
  }

  /** The same interleaving with the guard checked against the current names
      registers the name exactly once, keeps the state valid and draws no
      refusal. */
  lemma LiveCheckRegistersOnce(s: State, a: ClientId, b: ClientId, name: string)
    requires Valid(s) && a in s.starting && b in s.starting && a != b
    requires name !in s.registered
    ensures var s1 := OnReady(OnReady(s, a, Some([name])), b, Some([name]));
            var t := CommandsListed(s1, a);
            var s2 := CommandsListed(t, b);
            && Valid(s2)
            && name in s2.registered
            && Register(name) in t.trace[|s1.trace|..]
            && (forall i :: |s1.trace| <= i < |t.trace| ==> t.trace[i] == Register(name))
            && s2.trace == t.trace
  {
    OnReadyValid(s, a, Some([name]));
    var h := OnReady(s, a, Some([name]));
    OnReadyValid(h, b, Some([name]));
    var s1 := OnReady(h, b, Some([name]));
    CommandsListedValid(s1, a);
    CommandsListedRegistersAbsent(s1, a, name);
    var t := CommandsListed(s1, a);
    CommandsListedValid(t, b);
    assert Elements([name]) == {name};
    var c := t.awaiting[b];
    RegisterAbsentKnown(t.(awaiting := t.awaiting - {b}, commandCode := t.commandCode[c.key := CommandTable(b, c.names)]), c.names);
  }
}

=== FILE: registry.dfy ===
/**
 The session registry: the extension's mutable state as one immutable record,
 the effects it emits, `addClient`, and the folder-removal handler.
 */
module Registry {
  import opened Base
  import opened Workspace
  import opened Selector
  import opened Commands

  /** A language client, named by the construction attempt that produced it. */
  type ClientId = nat

  /** A line written to the output channel; the text itself is not modelled. */
  datatype LogLine =
    | Launching(key: string)        // a client is about to be constructed for a folder
    | ActivatedFor(key: string)     // a client became ready
    | NoClientFor(doc: Uri)         // a command found no client for its folder
    | NoFolderFor(doc: Uri)         // an opened file lies outside every folder
    | OnlyOneFolder                 // activation starts the single folder's client
    | SeveralFolders                // activation waits for a document to open
    | NoWorkspace                   // activation ran without any folder
    | Caught                        // an exception was caught and written out

  /** What the core does to the world, in the order it does it. */
  datatype Effect =
    | Log(line: LogLine)
    | Launched(client: ClientId, key: string, options: ClientOptions)   // constructed and started
    | Request(client: ClientId, command: string, args: seq<Arg>)         // ExecuteCommandRequest
    | Invoke(client: ClientId, command: string, args: seq<Arg>)          // a dynamic command's function
    | Register(command: string)                                          // host command registration
    | RegisterRejected(command: string)                                  // the host refused a duplicate
    | HandlerThrew(command: string)                                      // a command handler threw to the host
    | Stop(client: ClientId)

  /** The dynamic commands a ready client returned, bound to that client. */
  datatype CommandTable = CommandTable(client: ClientId, names: seq<string>)

  /** A readiness continuation suspended at its wait for the host's command
      list: the folder key, the names it will register, and the host's command
      names as listed for it. */
  datatype Continuation = Continuation(key: string, names: seq<string>, listed: set<string>)

  /**
   The extension's state.
   - `clients`: folder key to client (the `clients` map);
   - `commandCode`: folder key to the dynamic command table (`commandCode`);
   - `registered`: every command name the host's dispatcher knows;
   - `starting`: clients whose readiness continuation has not run, with their folder key;
   - `awaiting`: readiness continuations suspended at the host command-list query;
   - `attempts`: client constructions attempted so far;
   - `trace`: every effect so far.
   */
  datatype State = State(
    clients: map<string, ClientId>,
    commandCode: map<string, CommandTable>,
    registered: set<string>,
    starting: map<ClientId, string>,
    awaiting: map<ClientId, Continuation>,
    attempts: nat,
    trace: seq<Effect>)

  /** Every client id in use was handed out by an earlier construction attempt. */
  predicate IdsIssued(s: State)
  {
    && (forall k :: k in s.clients ==> s.clients[k] < s.attempts)
    && (forall id :: id in s.starting ==> id < s.attempts)
    && (forall id :: id in s.awaiting ==> id < s.attempts)
  }

  /** The host never saw a name registered twice, and every name this
      extension registered is still registered. */
  predicate RegisteredOnce(s: State)
  {
    && (forall i, j :: 0 <= i < j < |s.trace| && s.trace[i].Register? && s.trace[j].Register?
          ==> s.trace[i].command != s.trace[j].command)
    && (forall i :: 0 <= i < |s.trace| && s.trace[i].Register? ==> s.trace[i].command in s.registered)
  }

  /** No registration was ever refused by the host. */
  predicate NoRejection(trace: seq<Effect>)
  {
    forall i :: 0 <= i < |trace| ==> !trace[i].RegisterRejected?
  }

  /** The invariant every handler keeps, the readiness continuation as the
      source writes it included: ids were issued, no client sits under two
      keys, a client is pending in at most one way, and no name was ever
      registered twice. */
  predicate Coherent(s: State)
  {
    && IdsIssued(s)
    && Injective(s.clients)
    && s.starting.Keys !! s.awaiting.Keys
    && RegisteredOnce(s)
  }

  /** The invariant of every state reachable with the duplicate guard checked
      against the host's current names: coherent, and no registration was
      ever refused. */
  predicate Valid(s: State)
  {
    Coherent(s) && NoRejection(s.trace)
  }

  /** The parts of the state that record sessions and commands are equal. */
  predicate SameCommands(s: State, r: State)
  {
    r.commandCode == s.commandCode && r.registered == s.registered && r.awaiting == s.awaiting
  }

  /**
   `addClient(folder)`: at most one client per folder key. A folder that
   already has a client changes nothing. Otherwise one line is logged and a
   client is constructed and started; if that throws, the exception is logged
   and no entry is made, else exactly one entry is added under the folder's key
   and the client awaits readiness. No other key changes.
   */
  function AddClient(s: State, host: Host, folder: WorkspaceFolder): (r: State)
    ensures Key(folder) in s.clients ==> r == s
    ensures Key(folder) !in s.clients ==>
      && r.attempts == s.attempts + 1
      && |r.trace| == |s.trace| + 2 && r.trace[..|s.trace|] == s.trace
      && r.trace[|s.trace|] == Log(Launching(Key(folder)))
    ensures Key(folder) in r.clients <==> Key(folder) in s.clients || s.attempts !in host.failing
    ensures r.clients.Keys == s.clients.Keys + (r.clients.Keys * {Key(folder)})
    ensures forall k :: k in s.clients ==> k in r.clients && r.clients[k] == s.clients[k]
    ensures Key(folder) !in s.clients && Key(folder) in r.clients ==>
      && r.clients[Key(folder)] == s.attempts
      && r.starting == s.starting[s.attempts := Key(folder)]
      && r.trace[|s.trace| + 1] == Launched(s.attempts, Key(folder), ClientOptionsFor(folder))
    ensures Key(folder) !in r.clients ==> r.starting == s.starting && r.trace[|r.trace| - 1] == Log(Caught)
    ensures SameCommands(s, r)
  {
    var k := Key(folder);
    if k in s.clients then
      s
    else
      var launching := s.trace + [Log(Launching(k))];
      if s.attempts in host.failing then
        s.(attempts := s.attempts + 1, trace := launching + [Log(Caught)])
      else
        var id := s.attempts;
        s.(clients := s.clients[k := id],
           starting := s.starting[id := k],
           attempts := s.attempts + 1,
           trace := launching + [Launched(id, k, ClientOptionsFor(folder))])
  }

  /** One host registration (`commands.registerTextEditorCommand`): a name
      the host does not know is registered; a name it already knows is refused,
      and the host throws. */
  function HostRegister(s: State, name: string): (r: State)
    ensures name in r.registered
    ensures name !in s.registered ==> r.registered == s.registered + {name} && r.trace == s.trace + [Register(name)]
    ensures name in s.registered ==> r.registered == s.registered && r.trace == s.trace + [RegisterRejected(name)]
  {
    if name in s.registered then
      s.(trace := s.trace + [RegisterRejected(name)])
    else
      s.(registered := s.registered + {name}, trace := s.trace + [Register(name)])
  }

  /** The host never registers a name twice: a registration keeps
      `RegisteredOnce`, and draws no refusal when the name is new. */
  lemma HostRegisterKeeps(s: State, name: string)
    requires RegisteredOnce(s)
    ensures RegisteredOnce(HostRegister(s, name))
    ensures name !in s.registered && NoRejection(s.trace) ==> NoRejection(HostRegister(s, name).trace)
  {
    var r := HostRegister(s, name);
    forall i, j | 0 <= i < j < |r.trace| && r.trace[i].Register? && r.trace[j].Register?
      ensures r.trace[i].command != r.trace[j].command
    {
      assert r.trace[i] == s.trace[i];
      if j < |s.trace| {
        assert r.trace[j] == s.trace[j];
      } else {
        assert s.trace[i].command in s.registered;
      }
    }
    forall i | 0 <= i < |r.trace| && r.trace[i].Register?
      ensures r.trace[i].command in r.registered
    {
      if i < |s.trace| {
        assert r.trace[i] == s.trace[i];
      }
    }
    if name !in s.registered && NoRejection(s.trace) {
      forall i | 0 <= i < |r.trace| ensures !r.trace[i].RegisterRejected? {
        if i < |s.trace| {
          assert r.trace[i] == s.trace[i];
        }
      }
    }
  }

  /** Effects other than registrations leave `RegisteredOnce` intact. */
  lemma {:induction false} RegisteredOnceExtend(s: State, r: State)
    requires RegisteredOnce(s)
    requires r.registered == s.registered && s.trace <= r.trace
    requires forall i :: |s.trace| <= i < |r.trace| ==> !r.trace[i].Register? && !r.trace[i].RegisterRejected?
    ensures RegisteredOnce(r)
    ensures NoRejection(s.trace) ==> NoRejection(r.trace)
  {
    forall i, j | 0 <= i < j < |r.trace| && r.trace[i].Register? && r.trace[j].Register?
      ensures r.trace[i].command != r.trace[j].command
    {
      assert j < |s.trace|;
      assert r.trace[i] == s.trace[i] && r.trace[j] == s.trace[j];
    }
    forall i | 0 <= i < |r.trace| && r.trace[i].Register?
      ensures r.trace[i].command in r.registered
    {
      assert r.trace[i] == s.trace[i];
    }
    if NoRejection(s.trace) {
      forall i | 0 <= i < |r.trace| ensures !r.trace[i].RegisterRejected? {
        if i < |s.trace| {
          assert r.trace[i] == s.trace[i];
        }
      }
    }
  }

  /** `addClient` keeps the invariant. */
  lemma AddClientValid(s: State, host: Host, folder: WorkspaceFolder)
    requires Coherent(s)
    ensures Coherent(AddClient(s, host, folder))
    ensures Valid(s) ==> Valid(AddClient(s, host, folder))
  {
    var r := AddClient(s, host, folder);
    RegisteredOnceExtend(s, r);
  }

  /** Calling `addClient` again for a folder that has a client is a no-op: while
      a folder's entry exists, no second client is launched for it. */
  lemma AddClientIdempotent(s: State, host: Host, folder: WorkspaceFolder)
    ensures Key(folder) in AddClient(s, host, folder).clients ==>
      AddClient(AddClient(s, host, folder), host, folder) == AddClient(s, host, folder)
  {
  }

  /** The keys of a batch of removed folders. */
  function KeysOf(folders: seq<WorkspaceFolder>): set<string>
  {
    set i | 0 <= i < |folders| :: Key(folders[i])
  }

  lemma KeysOfSplit(folders: seq<WorkspaceFolder>)
    requires |folders| > 0
    ensures KeysOf(folders) == {Key(folders[0])} + KeysOf(folders[1..])
  {
    forall x | x in KeysOf(folders) ensures x in {Key(folders[0])} + KeysOf(folders[1..]) {
      var i :| 0 <= i < |folders| && Key(folders[i]) == x;
      if i > 0 {
        assert folders[1..][i - 1] == folders[i];
      }
    }
    forall x | x in KeysOf(folders[1..]) ensures x in KeysOf(folders) {
      var i :| 0 <= i < |folders[1..]| && Key(folders[1..][i]) == x;
      assert folders[i + 1] == folders[1..][i];
    }
  }

  /** Removal of one folder: if it has a client, its entry is deleted and then
      that client is stopped; otherwise nothing happens. */
  function RemoveFolder(s: State, folder: WorkspaceFolder): (r: State)
    ensures Key(folder) !in r.clients
    ensures r.clients == s.clients - {Key(folder)}
    ensures Key(folder) in s.clients ==> r.trace == s.trace + [Stop(s.clients[Key(folder)])]
    ensures Key(folder) !in s.clients ==> r == s
    ensures SameCommands(s, r) && r.starting == s.starting && r.attempts == s.attempts
  {
    var k := Key(folder);
    if k in s.clients then
      var client := s.clients[k];
      var deleted := s.(clients := s.clients - {k});
      deleted.(trace := deleted.trace + [Stop(client)])
    else
      s
  }

  /** The effects a step appended to the trace. */
  function Appended(s: State, r: State): seq<Effect>
    requires |s.trace| <= |r.trace|
  {
    r.trace[|s.trace|..]
  }

  /**
   The `onDidChangeWorkspaceFolders` handler for a batch of removed folders,
   in order. Every removed key is gone from `clients` afterwards, every other
   key keeps its client, commands are untouched, and only stops are emitted.
   */
  function RemoveFolders(s: State, removed: seq<WorkspaceFolder>): (r: State)
    ensures r.clients == s.clients - KeysOf(removed)
    ensures SameCommands(s, r) && r.starting == s.starting && r.attempts == s.attempts
    ensures s.trace <= r.trace
    ensures forall i :: |s.trace| <= i < |r.trace| ==> r.trace[i].Stop?
    decreases |removed|
  {
    if |removed| == 0 then
      s
    else
      KeysOfSplit(removed);
      RemoveFolders(RemoveFolder(s, removed[0]), removed[1..])
  }

  /** The clients a batch removal must stop: those registered under a removed key. */
  function ClientsUnder(s: State, keys: set<string>): set<ClientId>
  {
    set k | k in s.clients && k in keys :: s.clients[k]
  }

  /** The client ids named by a run of stop effects. */
  function StoppedIds(effects: seq<Effect>): set<ClientId>
  {
    set i | 0 <= i < |effects| && effects[i].Stop? :: effects[i].client
  }

  /**
   With one client per key, a batch removal stops exactly the clients of the
   removed folders, each exactly once: the stops are pairwise distinct and name
   precisely those clients. Removed folders without a client cause nothing.
   */
  lemma {:induction false} RemoveFoldersStopsEachOnce(s: State, removed: seq<WorkspaceFolder>)
    requires Injective(s.clients)
    ensures Distinct(Appended(s, RemoveFolders(s, removed)))
    ensures StoppedIds(Appended(s, RemoveFolders(s, removed))) == ClientsUnder(s, KeysOf(removed))
    decreases |removed|
  {
    var r := RemoveFolders(s, removed);
    if |removed| == 0 {
      assert Appended(s, r) == [];
      assert ClientsUnder(s, KeysOf(removed)) == {};
    } else {
      var f := removed[0];
      var rest := removed[1..];
      var s1 := RemoveFolder(s, f);
      assert Injective(s1.clients);
      RemoveFoldersStopsEachOnce(s1, rest);
      var tail := Appended(s1, r);
      KeysOfSplit(removed);
      if Key(f) in s.clients {
        var c := s.clients[Key(f)];
        var head := [Stop(c)];
        assert Appended(s, r) == head + tail;
        assert ClientsUnder(s, KeysOf(removed)) == {c} + ClientsUnder(s1, KeysOf(rest)) by {
          forall x | x in ClientsUnder(s, KeysOf(removed))
            ensures x in {c} + ClientsUnder(s1, KeysOf(rest))
          {
            var k :| k in s.clients && k in KeysOf(removed) && s.clients[k] == x;
            if k != Key(f) {
              assert k in s1.clients && k in KeysOf(rest);
            }
          }
          forall x | x in ClientsUnder(s1, KeysOf(rest))
            ensures x in ClientsUnder(s, KeysOf(removed))
          {
            var k :| k in s1.clients && k in KeysOf(rest) && s1.clients[k] == x;
            assert k in s.clients && k in KeysOf(removed) && s.clients[k] == x;
          }
          assert c in ClientsUnder(s, KeysOf(removed)) by {
            assert Key(f) in s.clients && Key(f) in KeysOf(removed);
          }
        }
        assert StoppedIds(head) == {c} by {
          assert head[0].Stop? && head[0].client == c;
        }
        assert c !in ClientsUnder(s1, KeysOf(rest));
        assert forall e :: e in tail ==> e.Stop? && e.client in ClientsUnder(s1, KeysOf(rest)) by {
          forall e | e in tail ensures e.Stop? && e.client in ClientsUnder(s1, KeysOf(rest)) {
            var i :| 0 <= i < |tail| && tail[i] == e;
            assert e.client in StoppedIds(tail);
          }
        }
        assert Stop(c) !in tail;
        StoppedIdsConcat(head, tail);
        DistinctPrepend(Stop(c), tail);
      } else {
        assert Appended(s, r) == tail;
        assert ClientsUnder(s, KeysOf(removed)) == ClientsUnder(s1, KeysOf(rest));
      }
    }
  }

  lemma StoppedIdsConcat(a: seq<Effect>, b: seq<Effect>)
    ensures StoppedIds(a + b) == StoppedIds(a) + StoppedIds(b)
  {
    var ab := a + b;
    forall x | x in StoppedIds(ab) ensures x in StoppedIds(a) + StoppedIds(b) {
      var i :| 0 <= i < |ab| && ab[i].Stop? && ab[i].client == x;
      if i < |a| {
        assert a[i] == ab[i];
      } else {
        assert b[i - |a|] == ab[i];
      }
    }
    forall x | x in StoppedIds(a) + StoppedIds(b) ensures x in StoppedIds(ab) {
      if x in StoppedIds(a) {
        var i :| 0 <= i < |a| && a[i].Stop? && a[i].client == x;
        assert ab[i] == a[i];
      } else {
        var i :| 0 <= i < |b| && b[i].Stop? && b[i].client == x;
        assert ab[|a| + i] == b[i];
      }
    }
  }

  lemma DistinctPrepend<T>(x: T, xs: seq<T>)
    requires Distinct(xs) && x !in xs
    ensures Distinct([x] + xs)
  {
    var ys := [x] + xs;
    forall i, j | 0 <= i < j < |ys| ensures ys[i] != ys[j] {
      assert ys[j] == xs[j - 1];
      if i > 0 {
        assert ys[i] == xs[i - 1];
      }
    }
  }

  /** A batch removal keeps the invariant. */
  lemma RemoveFoldersValid(s: State, removed: seq<WorkspaceFolder>)
    requires Coherent(s)
    ensures Coherent(RemoveFolders(s, removed))
    ensures Valid(s) ==> Valid(RemoveFolders(s, removed))
  {
    var r := RemoveFolders(s, removed);
    RegisteredOnceExtend(s, r);
  }

  /** The trace holds a stop of client `id` strictly between positions `lo`
      and `hi`. */
  predicate StoppedBetween(trace: seq<Effect>, id: ClientId, lo: int, hi: int)
  {
    exists k :: lo < k < hi && 0 <= k < |trace| && trace[k] == Stop(id)
  }

  /** Every client ever launched is still its folder's entry, or was stopped
      after its launch: no session is lost track of. */
  predicate Accounted(s: State)
  {
    forall i :: 0 <= i < |s.trace| && s.trace[i].Launched? ==>
      || (s.trace[i].key in s.clients && s.clients[s.trace[i].key] == s.trace[i].client)
      || StoppedBetween(s.trace, s.trace[i].client, i, |s.trace|)
  }

  /** A folder gets a second client only after its previous client was
      stopped. */
  predicate RelaunchOnlyAfterStop(trace: seq<Effect>)
  {
    forall i, j :: 0 <= i < j < |trace| && trace[i].Launched? && trace[j].Launched? && trace[i].key == trace[j].key
      ==> StoppedBetween(trace, trace[i].client, i, j)
  }

  /** At most one live session per folder: every launched client is
      accounted for, and none is replaced before it was stopped. */
  predicate Sessions(s: State)
  {
    Accounted(s) && RelaunchOnlyAfterStop(s.trace)
  }

  /** A step that keeps the registry and launches nothing keeps the sessions
      invariant. */
  lemma QuietKeepsSessions(s: State, r: State)
    requires Sessions(s)
    requires r.clients == s.clients && s.trace <= r.trace
    requires forall i :: |s.trace| <= i < |r.trace| ==> !r.trace[i].Launched?
    ensures Sessions(r)
  {
    forall i | 0 <= i < |r.trace| && r.trace[i].Launched?
      ensures || (r.trace[i].key in r.clients && r.clients[r.trace[i].key] == r.trace[i].client)
              || StoppedBetween(r.trace, r.trace[i].client, i, |r.trace|)
    {
      assert r.trace[i] == s.trace[i];
      if !(r.trace[i].key in r.clients && r.clients[r.trace[i].key] == r.trace[i].client) {
        var k :| i < k < |s.trace| && 0 <= k < |s.trace| && s.trace[k] == Stop(s.trace[i].client);
        assert r.trace[k] == s.trace[k];
      }
    }
    forall i, j | 0 <= i < j < |r.trace| && r.trace[i].Launched? && r.trace[j].Launched? && r.trace[i].key == r.trace[j].key
      ensures StoppedBetween(r.trace, r.trace[i].client, i, j)
    {
      assert r.trace[i] == s.trace[i] && r.trace[j] == s.trace[j];
      var k :| i < k < j && 0 <= k < |s.trace| && s.trace[k] == Stop(s.trace[i].client);
      assert r.trace[k] == s.trace[k];
    }
  }

  /** `addClient` keeps the sessions invariant: it launches a client only for
      a folder without one, and the previous client of that folder, if any,
      was stopped. */
  lemma AddClientSessions(s: State, host: Host, folder: WorkspaceFolder)
    requires Sessions(s)
    ensures Sessions(AddClient(s, host, folder))
  {
    var r := AddClient(s, host, folder);
    var k := Key(folder);
    if k in s.clients || s.attempts in host.failing {
      QuietKeepsSessions(s, r);
    } else {
      var n := |s.trace|;
      assert r.trace == s.trace + [Log(Launching(k)), Launched(s.attempts, k, ClientOptionsFor(folder))];
      forall i | 0 <= i < |r.trace| && r.trace[i].Launched?
        ensures || (r.trace[i].key in r.clients && r.clients[r.trace[i].key] == r.trace[i].client)
                || StoppedBetween(r.trace, r.trace[i].client, i, |r.trace|)
      {
        if i < n {
          assert r.trace[i] == s.trace[i];
          if !(r.trace[i].key in s.clients && s.clients[r.trace[i].key] == r.trace[i].client) {
            var x :| i < x < n && 0 <= x < n && s.trace[x] == Stop(s.trace[i].client);
            assert r.trace[x] == s.trace[x];
          }
        }
      }
      forall i, j | 0 <= i < j < |r.trace| && r.trace[i].Launched? && r.trace[j].Launched? && r.trace[i].key == r.trace[j].key
        ensures StoppedBetween(r.trace, r.trace[i].client, i, j)
      {
        assert i < n;
        assert r.trace[i] == s.trace[i];
        if j < n {
          assert r.trace[j] == s.trace[j];
          var x :| i < x < j && 0 <= x < n && s.trace[x] == Stop(s.trace[i].client);
          assert r.trace[x] == s.trace[x];
        } else {
          assert r.trace[i].key == k;
          var x :| i < x < n && 0 <= x < n && s.trace[x] == Stop(s.trace[i].client);
          assert r.trace[x] == s.trace[x];
        }
      }
    }
  }

  /** Removing a folder keeps the sessions invariant: its client leaves the
      registry and is stopped in the same step. */
  lemma RemoveFolderSessions(s: State, folder: WorkspaceFolder)
    requires Sessions(s)
    ensures Sessions(RemoveFolder(s, folder))
  {
    var r := RemoveFolder(s, folder);
    var k := Key(folder);
    if k in s.clients {
      var n := |s.trace|;
      forall i | 0 <= i < |r.trace| && r.trace[i].Launched?
        ensures || (r.trace[i].key in r.clients && r.clients[r.trace[i].key] == r.trace[i].client)
                || StoppedBetween(r.trace, r.trace[i].client, i, |r.trace|)
      {
        assert i < n && r.trace[i] == s.trace[i];
        if r.trace[i].key in s.clients && s.clients[r.trace[i].key] == r.trace[i].client {
          if r.trace[i].key == k {
            assert r.trace[n] == Stop(r.trace[i].client);
          }
        } else {
          var x :| i < x < n && 0 <= x < n && s.trace[x] == Stop(s.trace[i].client);
          assert r.trace[x] == s.trace[x];
        }
      }
      forall i, j | 0 <= i < j < |r.trace| && r.trace[i].Launched? && r.trace[j].Launched? && r.trace[i].key == r.trace[j].key
        ensures StoppedBetween(r.trace, r.trace[i].client, i, j)
      {
        assert j < n && r.trace[i] == s.trace[i] && r.trace[j] == s.trace[j];
        var x :| i < x < j && 0 <= x < n && s.trace[x] == Stop(s.trace[i].client);
        assert r.trace[x] == s.trace[x];
      }
    }
  }

  /** A batch removal keeps the sessions invariant. */
  lemma {:induction false} RemoveFoldersSessions(s: State, removed: seq<WorkspaceFolder>)
    requires Sessions(s)
    ensures Sessions(RemoveFolders(s, removed))
    decreases |removed|
  {
    if |removed| > 0 {
      RemoveFolderSessions(s, removed[0]);
      RemoveFoldersSessions(RemoveFolder(s, removed[0]), removed[1..]);
    }
  }
}

=== FILE: routing.dfy ===
/**
 Event routing: the handlers of the static and the dynamic commands, and the
 document-open handler that starts a folder's client.
 */
module Routing {
  import opened Base
  import opened Workspace
  import opened Commands
  import opened Registry

  /**
   The handler of a static command, invoked from an editor showing `doc`.
   With no folder to resolve to it does nothing; with a folder that has no
   client it writes one log line; otherwise it sends exactly one
   execute-command request, carrying the command's name and arguments, to that
   folder's client. Only the trace changes.
   */
  function RunStatic(s: State, host: Host, doc: TextDocument, command: string, args: seq<Arg>): (r: State)
    requires command in StaticCommandNames()
    ensures r.(trace := s.trace) == s
    ensures s.trace <= r.trace && |r.trace| == |s.trace| + (if ResolveFolder(host, doc).Some? then 1 else 0)
    ensures ResolveFolder(host, doc).None? ==> r == s
    ensures ResolveFolder(host, doc).Some? && Key(ResolveFolder(host, doc).value) !in s.clients ==>
      r.trace == s.trace + [Log(NoClientFor(doc.uri))]
    ensures ResolveFolder(host, doc).Some? && Key(ResolveFolder(host, doc).value) in s.clients ==>
      r.trace == s.trace + [Request(s.clients[Key(ResolveFolder(host, doc).value)], command, args)]
  {
    match ResolveFolder(host, doc)
    case None => s
    case Some(wf) =>
      if Key(wf) !in s.clients then
        s.(trace := s.trace + [Log(NoClientFor(doc.uri))])
      else
        s.(trace := s.trace + [Request(s.clients[Key(wf)], command, args)])
  }

  /**
   The handler registered for a dynamic command `name` (`extensionCmd`). With
   no folder it does nothing; with a folder that has no command table it writes
   one log line; otherwise it calls the table's function for `name` with the
   arguments. A table that lacks `name` has no such function, and the call
   throws out of the handler to the host. Only the trace changes.
   */
  function DispatchDynamic(s: State, host: Host, doc: TextDocument, name: string, args: seq<Arg>): (r: State)
    ensures r.(trace := s.trace) == s
    ensures s.trace <= r.trace && |r.trace| == |s.trace| + (if ResolveFolder(host, doc).Some? then 1 else 0)
    ensures ResolveFolder(host, doc).None? ==> r == s
    ensures ResolveFolder(host, doc).Some? && Key(ResolveFolder(host, doc).value) !in s.commandCode ==>
      r.trace == s.trace + [Log(NoClientFor(doc.uri))]
    ensures ResolveFolder(host, doc).Some? && Key(ResolveFolder(host, doc).value) in s.commandCode ==>
      var table := s.commandCode[Key(ResolveFolder(host, doc).value)];
      r.trace == s.trace + [if name in table.names then Invoke(table.client, name, args) else HandlerThrew(name)]
  {
    match ResolveFolder(host, doc)
    case None => s
    case Some(wf) =>
      if Key(wf) !in s.commandCode then
        s.(trace := s.trace + [Log(NoClientFor(doc.uri))])
      else
        var table := s.commandCode[Key(wf)];
        if name in table.names then
          s.(trace := s.trace + [Invoke(table.client, name, args)])
        else
          s.(trace := s.trace + [HandlerThrew(name)])
  }

  /** Dynamic dispatch consults the command tables and never the clients: two
      states that differ only in `clients` dispatch identically. */
  lemma DispatchIgnoresClients(s: State, t: State, host: Host, doc: TextDocument, name: string, args: seq<Arg>)
    requires t.(clients := s.clients) == s
    ensures DispatchDynamic(t, host, doc, name, args).trace == DispatchDynamic(s, host, doc, name, args).trace
  {
  }

  /** Static dispatch consults the clients and never the command tables. */
  lemma StaticIgnoresCommandTables(s: State, t: State, host: Host, doc: TextDocument, command: string, args: seq<Arg>)
    requires command in StaticCommandNames()
    requires t.(commandCode := s.commandCode, registered := s.registered) == s
    ensures RunStatic(t, host, doc, command, args).trace == RunStatic(s, host, doc, command, args).trace
  {
  }

  /** A request is only ever sent to a live client of the folder the command
      resolved to, and it carries a static command name. */
  lemma StaticRequestTargetsLiveClient(s: State, host: Host, doc: TextDocument, command: string, args: seq<Arg>)
    requires command in StaticCommandNames()
    ensures var r := RunStatic(s, host, doc, command, args);
      |r.trace| > |s.trace| && r.trace[|r.trace| - 1].Request? ==>
        && ResolveFolder(host, doc).Some?
        && s.clients[Key(ResolveFolder(host, doc).value)] == r.trace[|r.trace| - 1].client
        && r.trace[|r.trace| - 1].command in StaticCommandNames()
  {
  }

  /** The document is a saved PureScript file. */
  predicate Qualifies(doc: TextDocument)
  {
    doc.languageId == PureScript && doc.uri.scheme == FileScheme
  }

  /**
   `didOpenTextDocument`: anything but a saved PureScript file is ignored; a
   file the host places in no folder gets one log line; otherwise the owning
   folder is handed to `addClient`.
   */
  function DidOpen(s: State, host: Host, doc: TextDocument): (r: State)
    ensures !Qualifies(doc) ==> r == s
    ensures Qualifies(doc) && doc.uri !in host.owner ==> r == s.(trace := s.trace + [Log(NoFolderFor(doc.uri))])
    ensures Qualifies(doc) && doc.uri in host.owner ==> r == AddClient(s, host, host.owner[doc.uri])
  {
    if doc.languageId != PureScript || doc.uri.scheme != FileScheme then
      s
    else
      match OwningFolder(host, doc.uri)
      case None => s.(trace := s.trace + [Log(NoFolderFor(doc.uri))])
      case Some(folder) => AddClient(s, host, folder)
  }

  /** Opening a document never removes a client nor changes another folder's
      client, and after a qualifying open of an owned file its folder has a
      client unless the construction attempt failed. */
  lemma DidOpenOutcome(s: State, host: Host, doc: TextDocument)
    ensures forall k :: k in s.clients ==>
      k in DidOpen(s, host, doc).clients && DidOpen(s, host, doc).clients[k] == s.clients[k]
    ensures Qualifies(doc) && doc.uri in host.owner && s.attempts !in host.failing ==>
      Key(host.owner[doc.uri]) in DidOpen(s, host, doc).clients
    ensures DidOpen(s, host, doc).clients.Keys <= s.clients.Keys + (if doc.uri in host.owner then {Key(host.owner[doc.uri])} else {})
  {
  }

  lemma DidOpenValid(s: State, host: Host, doc: TextDocument)
    requires Coherent(s)
    ensures Coherent(DidOpen(s, host, doc))
    ensures Valid(s) ==> Valid(DidOpen(s, host, doc))
  {
    var r := DidOpen(s, host, doc);
    if Qualifies(doc) && doc.uri in host.owner {
      AddClientValid(s, host, host.owner[doc.uri]);
    } else {
      RegisteredOnceExtend(s, r);
    }
  }

  lemma RunStaticValid(s: State, host: Host, doc: TextDocument, command: string, args: seq<Arg>)
    requires Coherent(s) && command in StaticCommandNames()
    ensures Coherent(RunStatic(s, host, doc, command, args))
    ensures Valid(s) ==> Valid(RunStatic(s, host, doc, command, args))
  {
    RegisteredOnceExtend(s, RunStatic(s, host, doc, command, args));
  }

  lemma DispatchDynamicValid(s: State, host: Host, doc: TextDocument, name: string, args: seq<Arg>)
    requires Coherent(s)
    ensures Coherent(DispatchDynamic(s, host, doc, name, args))
    ensures Valid(s) ==> Valid(DispatchDynamic(s, host, doc, name, args))
  {
    RegisteredOnceExtend(s, DispatchDynamic(s, host, doc, name, args));
  }
}

=== FILE: selector.dfy ===
/**
 The per-folder client options: the document selector that decides which
 documents a folder's language client serves. Every folder's client serves the
 saved PureScript files under its root; only the folder at index 0 also serves
 untitled PureScript buffers, so exactly one folder adopts scratch documents.
 */
module Selector {
  import opened Base
  import opened Workspace

  /** One entry of a document selector; `pattern` is a glob over the path. */
  datatype DocumentFilter = DocumentFilter(scheme: string, language: string, pattern: Option<string>)

  /** The parts of `LanguageClientOptions` that depend on the folder. */
  datatype ClientOptions = ClientOptions(selector: seq<DocumentFilter>, workspaceFolder: WorkspaceFolder)

  const GlobSuffix: string := "/**/*"

  /** The glob that selects every file anywhere below `root`: the root
      followed by `GlobSuffix`. */
  function RootGlob(root: string): (g: string)
    ensures |g| == |root| + |GlobSuffix|
  {
    root + GlobSuffix
  }

  /** Reads back the root of a glob of the shape `RootGlob` produces. */
  function GlobRoot(pattern: string): (r: Option<string>)
    ensures r.Some? ==> RootGlob(r.value) == pattern
  {
    if |pattern| >= |GlobSuffix| && pattern[|pattern| - |GlobSuffix|..] == GlobSuffix then
      Some(pattern[..|pattern| - |GlobSuffix|])
    else
      None
  }

  /** Building a root glob and reading it back gives the root again. */
  lemma GlobRootRoundTrip(root: string)
    ensures GlobRoot(RootGlob(root)) == Some(root)
  {
    var g := RootGlob(root);
    assert g[|g| - |GlobSuffix|..] == GlobSuffix;
    assert g[..|g| - |GlobSuffix|] == root;
  }

  /** `path` names a file strictly below the directory `root`. */
  predicate UnderRoot(root: string, path: string)
  {
    |path| > |root| + 1 && root + "/" <= path
  }

  /** Whether a filter selects a document. Patterns are understood in the
      one shape this core builds, a root followed by `GlobSuffix`. */
  predicate FilterMatches(f: DocumentFilter, doc: TextDocument)
  {
    && doc.uri.scheme == f.scheme
    && doc.languageId == f.language
    && (f.pattern.Some? ==>
          GlobRoot(f.pattern.value).Some? && UnderRoot(GlobRoot(f.pattern.value).value, doc.uri.path))
  }

  /** A selector selects a document when one of its filters does. */
  predicate SelectorMatches(sel: seq<DocumentFilter>, doc: TextDocument)
  {
    exists i :: 0 <= i < |sel| && FilterMatches(sel[i], doc)
  }

  /** The filter for saved PureScript files under the folder's root. */
  function FileFilter(folder: WorkspaceFolder): DocumentFilter
  {
    DocumentFilter(FileScheme, PureScript, Some(RootGlob(FsPath(folder.uri))))
  }

  /** The filter for untitled PureScript buffers. */
  const UntitledFilter: DocumentFilter := DocumentFilter(UntitledScheme, PureScript, None)

  /**
   `clientOptions(folder)`: the file filter rooted at the folder always comes
   first; the untitled filter follows if and only if the folder is at index 0.
   */
  function ClientOptionsFor(folder: WorkspaceFolder): (r: ClientOptions)
    ensures r.workspaceFolder == folder
    ensures |r.selector| == (if folder.index == 0 then 2 else 1)
    ensures r.selector[0].scheme == FileScheme && r.selector[0].language == PureScript
    ensures r.selector[0].pattern == Some(FsPath(folder.uri) + "/**/*")
    ensures UntitledFilter in r.selector <==> folder.index == 0
  {
    var untitled := if folder.index == 0 then [UntitledFilter] else [];
    ClientOptions([FileFilter(folder)] + untitled, folder)
  }

  /** A saved document is served by a folder's client exactly when it is a
      PureScript file strictly below that folder's root. */
  lemma FileScope(folder: WorkspaceFolder, doc: TextDocument)
    requires doc.uri.scheme == FileScheme
    ensures SelectorMatches(ClientOptionsFor(folder).selector, doc)
        <==> doc.languageId == PureScript && UnderRoot(FsPath(folder.uri), doc.uri.path)
  {
    var sel := ClientOptionsFor(folder).selector;
    GlobRootRoundTrip(FsPath(folder.uri));
    if doc.languageId == PureScript && UnderRoot(FsPath(folder.uri), doc.uri.path) {
      assert FilterMatches(sel[0], doc);
    }
    if SelectorMatches(sel, doc) {
      var i :| 0 <= i < |sel| && FilterMatches(sel[i], doc);
      assert i == 0;
    }
  }

  /** An untitled PureScript buffer is served by a folder's client exactly
      when that folder is at index 0. */
  lemma AdoptsUntitledIff(folder: WorkspaceFolder, doc: TextDocument)
    requires doc.uri.scheme == UntitledScheme && doc.languageId == PureScript
    ensures SelectorMatches(ClientOptionsFor(folder).selector, doc) <==> folder.index == 0
  {
    var sel := ClientOptionsFor(folder).selector;
    if folder.index == 0 {
      assert FilterMatches(sel[1], doc);
    }
    if SelectorMatches(sel, doc) {
      var i :| 0 <= i < |sel| && FilterMatches(sel[i], doc);
      assert i != 0;
    }
  }

  /** Across the open folders of a well-formed host, exactly one folder's
      client serves a given untitled PureScript buffer, namely the first. */
  lemma ExactlyOneAdopter(host: Host, doc: TextDocument, i: nat)
    requires WellFormed(host)
    requires doc.uri.scheme == UntitledScheme && doc.languageId == PureScript
    requires i < |FolderList(host)|
    ensures SelectorMatches(ClientOptionsFor(FolderList(host)[i]).selector, doc) <==> i == 0
  {
    AdoptsUntitledIff(FolderList(host)[i], doc);
  }

  /** The folder a command handler picks for an untitled buffer is the folder
      whose client serves that buffer. */
  lemma UntitledRoutedToAdopter(host: Host, doc: TextDocument)
    requires WellFormed(host)
    requires HasFolders(host)
    requires doc.uri.scheme == UntitledScheme && doc.languageId == PureScript
    ensures ResolveFolder(host, doc).Some?
    ensures SelectorMatches(ClientOptionsFor(ResolveFolder(host, doc).value).selector, doc)
  {
    UnsavedResolvesToPrimary(host, doc);
    AdoptsUntitledIff(ResolveFolder(host, doc).value, doc);
  }

  /**
   Options are built once, when a client is launched. Once the folder at index
   0 is removed, the host re-indexes the rest, and the command handlers route
   an untitled buffer to the new first folder: the folder that was at index 1,
   whose client (keyed by the same URI) was launched with options that do not
   serve untitled buffers. No client launched before the removal serves it.
   */
  lemma PrimaryRemovalStrandsUntitled(before: Host, after: Host, doc: TextDocument)
    requires WellFormed(before) && |FolderList(before)| >= 2
    requires HasFolders(after) && FolderList(after)[0].uri == FolderList(before)[1].uri
    requires doc.uri.scheme == UntitledScheme && doc.languageId == PureScript
    ensures ResolveFolder(after, doc) == Some(FolderList(after)[0])
    ensures Key(ResolveFolder(after, doc).value) == Key(FolderList(before)[1])
    ensures forall i :: 1 <= i < |FolderList(before)| ==>
      !SelectorMatches(ClientOptionsFor(FolderList(before)[i]).selector, doc)
  {
    forall i | 1 <= i < |FolderList(before)|
      ensures !SelectorMatches(ClientOptionsFor(FolderList(before)[i]).selector, doc)
    {
      AdoptsUntitledIff(FolderList(before)[i], doc);
    }
  }
}

=== FILE: workspace.dfy ===
/**
 The editor host as the extension sees it: URIs, workspace folders, text
 documents, and the two host oracles the core consults, namely the list of open
 workspace folders and the lookup from a document URI to its owning folder.
 */
module Workspace {
  import opened Base

  /** A location. Only the scheme and the path matter to the core; the
      authority, query and fragment are not modelled. */
  datatype Uri = Uri(scheme: string, path: string)

  const FileScheme: string := "file"
  const UntitledScheme: string := "untitled"
  const PureScript: string := "purescript"

  /** `uri.toString()` of an authority-less URI: the registry key of a folder. */
  function UriString(u: Uri): string
  {
    u.scheme + "://" + u.path
  }

  /** `uri.fsPath`: for a file URI on a POSIX host, the path itself. */
  function FsPath(u: Uri): string
  {
    u.path
  }

  /** A workspace root: its URI and its position in the host's folder list. */
  datatype WorkspaceFolder = WorkspaceFolder(uri: Uri, index: nat)

  /** The key under which the session registry stores a folder. */
  function Key(f: WorkspaceFolder): string
  {
    UriString(f.uri)
  }

  /** A document as delivered by the host: its URI and its language id. */
  datatype TextDocument = TextDocument(uri: Uri, languageId: string)

  /**
   The host oracles.
   - `folders`: `workspace.workspaceFolders`, which is `undefined` when the
     editor was started without a folder;
   - `owner`: `workspace.getWorkspaceFolder(uri)`, defined on the URIs that lie
     inside some open folder;
   - `failing`: the construction attempts (numbered from 0) for which
     constructing or starting a language client throws.
   */
  datatype Host = Host(
    folders: Option<seq<WorkspaceFolder>>,
    owner: map<Uri, WorkspaceFolder>,
    failing: set<nat>)

  /** `workspace.getWorkspaceFolder(uri)`. */
  function OwningFolder(host: Host, u: Uri): Option<WorkspaceFolder>
  {
    if u in host.owner then Some(host.owner[u]) else None
  }

  /** The document is saved on disk and the host knows its folder. */
  predicate OwnedFile(host: Host, doc: TextDocument)
  {
    doc.uri.scheme == FileScheme && doc.uri in host.owner
  }

  /** At least one folder is open. */
  predicate HasFolders(host: Host)
  {
    host.folders.Some? && |host.folders.value| > 0
  }

  /** The open folders, `[]` when the host reports none. */
  function FolderList(host: Host): seq<WorkspaceFolder>
  {
    if host.folders.Some? then host.folders.value else []
  }

  /**
   `getWorkspaceFolder` of the command handlers: a saved document with an
   owning folder resolves to that folder; anything else (an untitled buffer, a
   file outside every folder) falls back to the first open folder; with no
   folder open the result is absent. It never fails.
   */
  function ResolveFolder(host: Host, doc: TextDocument): (r: Option<WorkspaceFolder>)
    ensures OwnedFile(host, doc) ==> r == Some(host.owner[doc.uri])
    ensures !OwnedFile(host, doc) && HasFolders(host) ==> r == Some(host.folders.value[0])
    ensures r.None? <==> !OwnedFile(host, doc) && !HasFolders(host)
  {
    if doc.uri.scheme == FileScheme && OwningFolder(host, doc.uri).Some? then
      OwningFolder(host, doc.uri)
    else if host.folders.Some? && |host.folders.value| > 0 then
      Some(host.folders.value[0])
    else
      None
  }

  /** What the host guarantees about its own oracles: every owning folder is
      one of the open folders, and each folder's index is its position. */
  predicate WellFormed(host: Host)
  {
    && (forall u :: u in host.owner ==> host.owner[u] in FolderList(host))
    && (forall i :: 0 <= i < |FolderList(host)| ==> FolderList(host)[i].index == i)
  }

  /** On a well-formed host the resolver only ever names an open folder, and
      it is absent exactly when no folder is open. */
  lemma ResolveWithinWorkspace(host: Host, doc: TextDocument)
    requires WellFormed(host)
    ensures ResolveFolder(host, doc).Some? ==> ResolveFolder(host, doc).value in FolderList(host)
    ensures ResolveFolder(host, doc).None? <==> |FolderList(host)| == 0
  {
    if OwnedFile(host, doc) {
      assert host.owner[doc.uri] in FolderList(host);
    }
  }

  /** A document that is not saved on disk (an untitled buffer) always
      resolves to the folder at index 0 when any folder is open. */
  lemma UnsavedResolvesToPrimary(host: Host, doc: TextDocument)
    requires WellFormed(host)
    requires doc.uri.scheme != FileScheme
    requires HasFolders(host)
    ensures ResolveFolder(host, doc).Some?
    ensures ResolveFolder(host, doc).value.index == 0
  {
    assert FolderList(host)[0].index == 0;
  }
}
